=== FILE: README.md ===
# Lowering OpenQASM to a circuit, in Dafny

`examples/qasmViewer.js` walks the ANTLR parse tree of an OpenQASM 2.0
program and builds the circuit it then hands to the renderer. Lines 28-213
are the lowering pass:

- `evaluate_expression` computes angles and register sizes;
- `gcd` and `format_expression` turn an angle into the text shown on a
  rotation gate, a multiple of π such as `3π/4` or a number with two
  decimals;
- `fresh_qubit` and `get_qubit` allocate qubits and resolve gate operands
  through `qubit_dict`;
- the loop over the program's children handles the version, `include`,
  `qreg`/`creg`, the gates `rz`, `rx` and `cx`, and `c = measure q[i]`,
  appending operation records;
- the qubits and the operations then form the circuit.

This project models that pass as pure functions over immutable state and
proves what it does.

Modules:

- **Syntax** holds the shapes of the parse tree the pass tells apart.
- **Errors** has one constructor per `throw` and per runtime TypeError or
  RangeError the pass can run into.
- **Numbers** models JavaScript numbers: `*`, `/`, `ToLength`, array
  lengths and array indexing. It keeps the special values NaN and Infinity
  and `undefined`.
- **Text** provides `parseInt` and decimal rendering.
- **Evaluator** is `evaluate_expression`, with an exact-arithmetic reference
  semantics.
- **Formatter** holds `gcd`, the reduction of `num/16`, the rendering, the
  tolerance test, `toFixed(2)` and `format_expression`.
- **Circuits** defines the qubit, register, operation and circuit records,
  and the invariant a run keeps.
- **Registry** is `fresh_qubit`, register declarations and `get_qubit`.
- **Emitter** covers the gate-call and measurement branches.
- **Walker** is the loop and the whole pass, `Lower`.
- **Steps** gives what single statements do to a run, and the loop as a fold
  of steps.
- **AngleExamples** and **BellExample** are worked instances. The second
  lowers the program `OPENQASM 2.0; qreg q[2]; rz(pi/2) q[0]; cx q[0], q[1]; c = measure q[1];`
  to its circuit.

Some behaviours of the code are easy to misread; the model follows the code:

- A binary expression with an operator other than `*` or `/` falls through
  both tests, so `evaluate_expression` returns `undefined` rather than
  failing. The error surfaces only when `toFixed` is called on it
  (`UndefinedAngle`). As an array length it means 0 qubits; as an index it
  finds no qubit.
- Declaring a `qreg` name a second time rebinds it to fresh qubits. The
  qubits it named before stay allocated.
- `get_qubit` on a scalar register, or with an index that is not a whole
  number below the register's length, yields `undefined`. The run then
  fails when `.id` is read (`NoSuchQubit`). For `rz`/`rx` this happens
  before the angle is formatted.
- Only the version `2.0` is accepted, and only as the first child. A
  version anywhere else is an unexpected element.
- `parseInt` reads only the leading digits of a literal, so `1_000` is 1.
- The last child of the program is never inspected, whatever it is.
- Line 87 writes `"π/${rdenom}"` in double quotes, which is not a template
  literal. The pass follows it as written: `pi/2` and `pi/4` are both
  labelled with that literal text. `Formatter.FormatValueCorrected` and
  `Formatter.FormatExpressionCorrected` render the denominator as line 90
  does. They sit beside the pass and are not used by `Lower`;
  `Formatter.CorrectionOnlyAtLine87` shows they differ from it only there.

`Math.PI` is the exact value of the double, 884279719003555 / 2^48. The
tolerance test at line 71 is modelled as written: the fractional part of
`value / Math.PI * 16` must be below 0.00001. An angle just below a
multiple of π/16 therefore fails the test and is shown with decimals.

## Model

| member | source | states |
|---|---|---|
| Numbers.Multiply | examples/qasmViewer.js:35-37 | JavaScript `*`: exact product of numbers, NaN when either side is NaN or `undefined`; Infinity times zero is NaN, Infinity times anything else is Infinity; never `undefined` |
| Numbers.Divide | examples/qasmViewer.js:32-34 | JavaScript `/`: the quotient times the divisor gives back the dividend; over zero it gives Infinity, or NaN for 0/0; a number over Infinity is 0, Infinity over a number is Infinity, Infinity over Infinity is NaN |
| Numbers.MultiplyCommutes | examples/qasmViewer.js:35-37 | `*` is commutative over every value, special ones included |
| Numbers.DivideThenMultiply | examples/qasmViewer.js:32-37 | dividing by a non-zero number and multiplying back restores the value, except `undefined`, which becomes NaN |
| Numbers.ToLength | examples/qasmViewer.js:145 | the length a size stands for is its integer part, capped at 2^53-1; Infinity and sizes from 2^53-1 on stand for 2^53-1; NaN and `undefined` stand for 0 |
| Numbers.ArrayLength | examples/qasmViewer.js:145 | `Array.from({length})` fails exactly for Infinity and sizes of 2^32 or more; otherwise the array length is the size's integer part |
| Numbers.ElementIndex | examples/qasmViewer.js:111 | indexing an array reads a position exactly when the index is a whole number below the length |
| Text.ParseIntOfNatToString | examples/qasmViewer.js:41 | `parseInt` reads back every decimal numeral it is given |
| Text.ParseIntStopsAtNonDigit | examples/qasmViewer.js:41 | `parseInt` stops at the first character that is not a digit |
| Text.NatToString | examples/qasmViewer.js:82-90 | `${rnum}` and `${rdenom}` write a number as a non-empty run of digits without a leading zero; `Text.ParseIntOfNatToString` reads it back |
| Text.ParseInt | examples/qasmViewer.js:41 | `parseInt` of an integer literal is the value of its leading run of digits; `Text.ParseIntOfNatToString` and `Text.ParseIntStopsAtNonDigit` state what it reads |
| Text.AsciiUpper | examples/qasmViewer.js:162 | `gate.toUpperCase()` on the gate names that reach line 162; `Text.UpperRotationNames` states that `rz` and `rx` become `RZ` and `RX` |
| Text.NatToStringInjective | examples/qasmViewer.js:82-90 | distinct numbers are written with distinct digit strings in the template literals |
| Evaluator.Evaluate | examples/qasmViewer.js:28-59 | evaluation succeeds exactly on binary nodes over literals and `pi`; `pi` is `Math.PI`; another identifier fails with its own name; a leaf that is no literal or identifier fails as an unknown symbol; a three-child node that is not binary, or a node of another width, fails as malformed; `undefined` comes only from an operator other than `/` and `*` |
| Evaluator.LeftOperandFirst | examples/qasmViewer.js:30-31 | both operands are evaluated, left first: the left operand's error is the node's error, and the right operand's error surfaces only when the left one evaluates |
| Evaluator.EvaluateProduct | examples/qasmViewer.js:35-37 | a `*` node over two operands that evaluate is the JavaScript product of their values |
| Evaluator.EvaluateQuotient | examples/qasmViewer.js:32-34 | a `/` node over two operands that evaluate is the JavaScript quotient of their values |
| Evaluator.EvaluateAgreesWithExact | examples/qasmViewer.js:28-59 | wherever plain real arithmetic is defined, the evaluator returns exactly its value |
| Evaluator.MultiplicativeIsDefined | examples/qasmViewer.js:29-38 | an expression using only `*` and `/` never evaluates to `undefined` |
| Formatter.Gcd | examples/qasmViewer.js:60-67 | Euclid's loop returns a common divisor of its arguments that every common divisor divides |
| Formatter.GcdWithSixteen | examples/qasmViewer.js:74 | `gcd(num, 16)` is a power of two that divides `num`; it is 16 exactly when 16 divides `num`, and otherwise leaves `num/d` odd |
| Formatter.Reduce | examples/qasmViewer.js:72-76 | `rnum/rdenom` equals `num/16`, the denominator is a power of two up to 16, it is 1 exactly when 16 divides `num`, and the fraction is in lowest terms |
| Formatter.ReduceUnique | examples/qasmViewer.js:72-76 | the reduced fraction is the only lowest-terms fraction with such a denominator equal to `num/16` |
| Formatter.RenderAsWritten | examples/qasmViewer.js:77-92 | the text lines 77-92 return, with the numerator-1 branch giving the literal `π/${rdenom}`; `Formatter.AsWrittenLosesDenominator`, `Formatter.AsWrittenConfusesHalfAndQuarter` and `Formatter.AsWrittenAgreesElsewhere` state how it differs from a rendering that can be read back |
| Formatter.ParseRender | examples/qasmViewer.js:77-92 | every fraction is read back from its rendering (corrected line 87) |
| Formatter.RenderReduceInjective | examples/qasmViewer.js:72-92 | distinct whole multiples of π/16 are shown by distinct texts (corrected line 87) |
| Formatter.AsWrittenLosesDenominator | examples/qasmViewer.js:86-88 | as written, numerator 1 over any denominator above 1 gives the literal text `π/${rdenom}`, which names no denominator and cannot be read back |
| Formatter.AsWrittenConfusesHalfAndQuarter | examples/qasmViewer.js:72-92 | as written, π/2 and π/4 reduce to different fractions but are shown alike |
| Formatter.AsWrittenAgreesElsewhere | examples/qasmViewer.js:77-92 | outside the numerator-1 branch the rendering as written and the corrected one agree |
| Formatter.RoundHalfUp | examples/qasmViewer.js:72 | `Math.round` of a non-negative number is within one half of it, halves rounding up |
| Formatter.ToFixed2 | examples/qasmViewer.js:95 | `toFixed(2)` writes digits without a leading zero, a point and two digits whose value is within half a hundredth of the number |
| Formatter.HundredthsText | examples/qasmViewer.js:95 | the text of `n` hundredths reads back as `n`, and a leading `0` is followed by the point |
| Formatter.NoPiInFixed | examples/qasmViewer.js:94-96 | decimal output never contains the π sign |
| Formatter.NearSixteenth | examples/qasmViewer.js:71 | the test at line 71: `value / Math.PI * 16` lies less than 0.00001 above a whole number; `Formatter.WholeSixteenths` states that every exact multiple of π/16 passes it in the model's exact arithmetic, and `Formatter.FormatValue` that it decides whether the π sign appears |
| Formatter.RoundNearSixteenth | examples/qasmViewer.js:71-72 | for a value that passes the test at line 71, `Math.round(value_over_pi * 16)` is the whole number of sixteenths of π below it |
| Formatter.FormatValue | examples/qasmViewer.js:69-96 | the text fails exactly for `undefined`, with the `toFixed` TypeError; NaN and Infinity are shown as `NaN` and `Infinity`; a number is shown with a π sign exactly when it passes the test at line 71, and otherwise as `toFixed(2)` |
| Formatter.FormatNearSixteenth | examples/qasmViewer.js:69-92 | a number that passes the test is shown by the rendering as written of its sixteenths of π in lowest terms |
| Formatter.FormatValueCorrected | examples/qasmViewer.js:69-96 | with line 87 corrected, a number that passes the test is shown by a text that reads back as its sixteenths of π in lowest terms; other values are shown as by the code |
| Formatter.CorrectionOnlyAtLine87 | examples/qasmViewer.js:86-88 | the corrected formatter differs from the code exactly for numbers that pass the test and reduce to numerator 1 over a denominator above 1 |
| Formatter.FormatSixteenths | examples/qasmViewer.js:70-92 | in the model's exact arithmetic, an exact multiple `k` of π/16 passes the test and is shown as `k/16` in lowest terms, by the rendering as written and, once corrected, by the rendering of line 90 |
| Formatter.FormatExpression | examples/qasmViewer.js:68-97 | formatting fails with the evaluator's own error where evaluation fails, and otherwise only for `undefined`; a plain-arithmetic angle is always shown, as a multiple of π exactly when it passes the test at line 71, and otherwise as `toFixed(2)` of its value |
| Formatter.FormatExpressionNearSixteenth | examples/qasmViewer.js:68-92 | a plain-arithmetic angle that passes the test is shown by the rendering as written of its sixteenths of π in lowest terms |
| Formatter.FormatExpressionCorrected | examples/qasmViewer.js:68-97 | with line 87 corrected, an angle is shown exactly when it evaluates to a value other than `undefined`, and a plain-arithmetic angle that passes the test reads back as its sixteenths of π |
| Circuits.MeasuredIsAllocated | examples/qasmViewer.js:186-195 | in a well-formed run only allocated qubits are measured |
| Registry.FreshQubit | examples/qasmViewer.js:101-106 | the new qubit's id is the number of qubits before; it is appended unmeasured and nothing else changes |
| Registry.Allocate | examples/qasmViewer.js:145 | `n` calls of `fresh_qubit` append `n` unmeasured qubits and return their ids in order, the old count upwards |
| Registry.AppendPreservesWellFormed | examples/qasmViewer.js:101-106 | appending fresh qubits keeps ids contiguous, references in range and measurement marks consistent |
| Registry.DeclareRegister | examples/qasmViewer.js:135-153 | `creg` changes nothing; `qreg name[N]` binds `name` to as many fresh qubits as `N` stands for as an array length; it fails with the evaluator's own error when `N` does not evaluate, and with the `Array.from` RangeError (`InvalidArrayLength`) when the length is invalid; `qreg name` binds one fresh qubit; only `name` is rebound |
| Registry.GetQubit | examples/qasmViewer.js:107-117 | an operand yields qubit `qs[k]` exactly when its first index evaluates to a whole number `k` within a sized register; a scalar register yields no qubit; the index is evaluated first, so an index that does not evaluate fails with the evaluator's own error; an undeclared name then fails with `UndeclaredRegister` naming it; a non-indexed operand fails |
| Registry.ResolvedIsAllocated | examples/qasmViewer.js:107-111 | every qubit an operand resolves to in a well-formed run is allocated |
| Emitter.EmitGateCall | examples/qasmViewer.js:155-184 | `rz`/`rx` succeed exactly when the operand resolves and the angle formats, appending one rotation with the upper-cased name, the qubit and the angle text; `cx` succeeds exactly when both operands resolve, appending an X controlled by the first on the second; any other gate fails with `UnexpectedGate`; a missing operand or argument fails as such; the operand is resolved before the angle, so its `get_qubit` error or `NoSuchQubit` comes first, then the angle's own error; for `cx` the first operand's error comes before the second's |
| Emitter.AppendPreservesWellFormed | examples/qasmViewer.js:160-179 | appending a gate on allocated qubits keeps the run well-formed |
| Emitter.EmitMeasurement | examples/qasmViewer.js:185-197 | a measurement succeeds exactly when its operand resolves; otherwise it fails with the `get_qubit` error, or with `NoSuchQubit` when no qubit is found; it marks that qubit measured, changes no other qubit and appends a `Measure` record on it |
| Emitter.MeasurePreservesWellFormed | examples/qasmViewer.js:186-196 | marking a qubit measured while appending its measurement keeps the marks consistent |
| Walker.ExecuteStatement | examples/qasmViewer.js:130-200 | `include` changes nothing; another statement rule fails; a declaration, gate call or measurement whose handler throws fails with the handler's error; a gate call or measurement appends exactly one operation with its label and keeps the earlier ones |
| Walker.Step | examples/qasmViewer.js:122-208 | a child is accepted only if it is a leading `2.0` version or a handled statement; a leading version other than `2.0` aborts with that version; a later version, a scope or an end-of-file node fails with `UnexpectedElement`; an unhandled statement rule fails with `UnexpectedStatement`; a statement that fails makes the step fail with its error; the step keeps the run well-formed and appends one operation exactly for gate calls and measurements |
| Walker.Walk | examples/qasmViewer.js:118-209 | a successful walk accepted every child but the last and appended, in program order, one operation per gate call or measurement; a child that fails ends the walk with its error |
| Walker.Lower | examples/qasmViewer.js:118-213 | a produced circuit is well-formed, every child but the last was accepted, and its operations carry, in order, the labels of the program's gate calls and measurements |
| Walker.LowerIgnoresLastChild | examples/qasmViewer.js:118-121 | the result does not depend on the last child |
| Walker.WalkIgnoresLastChild | examples/qasmViewer.js:118-121 | from any position, the walk does not depend on the last child |
| Walker.UnsupportedVersionAborts | examples/qasmViewer.js:122-127 | a leading version other than `2.0` aborts the run with that version |
| Walker.RejectedChildAborts | examples/qasmViewer.js:128-208 | a child of a shape the loop does not handle, anywhere but last, means no circuit; a handled statement whose handler throws is covered by `Steps.StepFailureAborts` |
| Steps.DeclareSizedStep | examples/qasmViewer.js:140-146 | `qreg name[size]` with a whole size `n` appends `n` fresh qubits numbered on from the old count and binds `name` to their ids |
| Steps.RotationStep | examples/qasmViewer.js:157-167 | a rotation whose operand and angle resolve appends exactly that rotation record |
| Steps.ControlledStep | examples/qasmViewer.js:168-180 | a `cx` whose operands resolve appends exactly that controlled-X record |
| Steps.MeasureStep | examples/qasmViewer.js:185-197 | a resolved measurement marks its qubit and appends exactly that measurement record |
| Steps.StepFailureAborts | examples/qasmViewer.js:118-208 | when the children before position `k` step through a chain of states from the empty run and child `k`, not the last, fails, the whole pass fails with that child's error |
| Steps.UndeclaredRegisterAborts | examples/qasmViewer.js:107-117 | a gate call reached by the loop whose first operand names an undeclared register, its index evaluating, makes the whole pass fail with `UndeclaredRegister` for that name: no circuit |
| Steps.WalkThrough | examples/qasmViewer.js:118-209 | the loop is the fold of single steps: a chain of steps through a list of states ends the walk in the last of them |
| Steps.WalkStep | examples/qasmViewer.js:118-131 | a child that steps from one state to another hands the rest of the loop that state |
| Steps.WalkEnd | examples/qasmViewer.js:119-121 | the loop stops before the last child |
| Steps.LowerOfWalk | examples/qasmViewer.js:210-213 | the circuit holds the qubits and operations of the walk's end state |
| AngleExamples.FormatsAs | examples/qasmViewer.js:68-92 | in the model's exact arithmetic, an angle worth exactly `k` sixteenths of π is shown by the rendering as written of `k/16` in lowest terms, and by the corrected rendering once line 87 is fixed |
| AngleExamples.PiExample | examples/qasmViewer.js:77-80 | `pi` is shown as `π` |
| AngleExamples.HalfPiExample | examples/qasmViewer.js:85-91 | `pi/2` is shown as the literal text `π/${rdenom}`, and as `π/2` once line 87 is corrected |
| AngleExamples.QuarterExamples | examples/qasmViewer.js:89-91 | `3*pi/4` and `5*pi/4` are shown as `3π/4` and `5π/4` |
| AngleExamples.ZeroExample | examples/qasmViewer.js:71-83 | an angle of 0 passes the test and is shown as `0π` |
| AngleExamples.TwoDecimalsExample | examples/qasmViewer.js:94-96 | 0.37 is no multiple of π/16 and is shown as `0.37` |
| AngleExamples.SeparatedNumeralExample | examples/qasmViewer.js:41 | the literal `1_000` is read as 1 |
| BellExample.BellProgramExample | examples/qasmViewer.js:98-213 | the two-qubit program lowers to two qubits, the second measured, and the operations RZ on 0 labelled `π/${rdenom}`, X on 1 controlled by 0, and a measurement of 1 |

## Left out

- Lines 1-27 are left out. They create the ANTLR lexer and parser and look up rule and symbol numbers. The model starts from an already classified tree (`Syntax`).
- Line 214, the call to `qviz.draw`, is left out. `Lower` returns the circuit that would be drawn.
- The `console.log` at line 114 is left out: it is output only.
- Floating-point rounding is not modelled. Numbers are exact non-negative reals, and `Math.PI` is the exact value of its double. A product or quotient the double arithmetic would round may land on the other side of the line-71 tolerance than in the model.
- Formatter.FormatSixteenths: its exact multiples of π/16 pass the test only in exact arithmetic. In doubles, `11*pi/16` divided by `Math.PI` and times 16 is 10.999999999999998, which fails the test, so the code shows `2.16` where the model shows `11π/16`; `15*pi/16`, `11*pi/8` and `15*pi/8` behave alike.
- AngleExamples.FormatsAs: the same; an expression worth exactly `k` sixteenths of π, such as `11*pi/16`, can fall just below `k` in doubles and be shown with two decimals. The instances proved in `AngleExamples` (`pi`, `pi/2`, `3*pi/4`, `5*pi/4`, 0) are not among those.
- Negative numbers and `-0` are left out. The expression shapes the pass evaluates have no negation or subtraction.
- `parseFloat` is not modelled as text parsing: a float literal carries the number `parseFloat` reads from its text, which stops at a digit separator as `parseInt` does (`1_0.5` reads as 1).
- `toFixed` switches to exponent notation from 10^21 on. `Formatter.ToFixed2` always writes the positional form.
- `qubit_dict` is a plain object, so names such as `__proto__` or `toString` find inherited properties. The model treats it as a map in which only declared names are present.
- The `Unknown kind` branch at line 152 is not modelled. The grammar admits only `qreg` and `creg` there.
- Gate modifiers are left out: the loop never looks at them, so `inv @ rz(pi) q[0];` runs as a plain `rz`. The model has no shape for a modifier, and such a call is written as the plain gate call it runs as.
- `gphase` is left out. The loop reads its gate name through `Identifier()`, which it lacks, so the run fails with a TypeError; the model has no shape for it.
- Every statement rule other than the four handled ones is an `OtherStatement` that aborts the run.
- Emitter.EmitGateCall: the rotation record at lines 160-166 has no `controls`, `isControlled` or `isMeasurement` field, and the `cx` record at lines 171-178 has no `isMeasurement` or `displayArgs`. The model has one record type, which fills an absent list with `[]`, an absent flag with `false` and absent display text with `None`; a renderer that tells a missing field from such a value is not modelled.
- Emitter.EmitMeasurement: the record at lines 188-195 has no `isControlled` or `displayArgs`; the model fills them with `false` and `None` as above.
- Template literals such as `${rnum}` write a number from 10^21 on in exponent notation. The model always writes positional digits; such a numerator needs an angle above 10^20 π.
- `parseInt` of a numeral of more than 308 digits, and `parseFloat` of a literal such as `1e999`, give Infinity. A literal in the model carries a finite number, so neither is modelled.
- Walker.Walk: its contract fixes the gate name of each operation it appends, in program order, and not the whole record. The full records are stated per statement by `Steps.RotationStep`, `Steps.ControlledStep` and `Steps.MeasureStep`, and `Steps.WalkThrough` chains them.
- Walker.Lower: that a handler's error becomes the run's error is stated by `Steps.StepFailureAborts` and `Steps.UndeclaredRegisterAborts`, not by its own contract. Its contract fixes the gate name of each operation, in program order, and not the whole record. The full records are stated per statement by the `Steps` lemmas, and for a whole program by `BellExample.BellProgramExample`.
- Formatter.FormatValue: the text shown for a value that passes the test at line 71 is stated by the lemma `Formatter.FormatNearSixteenth` rather than in the function's own contract, which says only that it carries the π sign. Every caller of the formatter would otherwise carry that fact into its own proof.
- Formatter.FormatExpression: likewise, the π text is stated by `Formatter.FormatExpressionNearSixteenth`.
- `builder/builder.py` and `python/tests/test_parser.py` are not part of this model. The eight-qubit program of that test is not lowered here; the Bell program is the worked whole-program instance.

## Findings

| source | as written | input that shows it | evidently intended | confidence | as-written member | corrected member |
|---|---|---|---|---|---|---|
| examples/qasmViewer.js:87 | the numerator-1 branch returns the double-quoted text `π/${rdenom}`, which is not a template literal, so the denominator is never inserted | `rz(pi/2) q[0];` and `rz(pi/4) q[0];` are both labelled `π/${rdenom}` | the denominator is rendered as in line 90: `π/2`, `π/4` | high, not executed | Formatter.AsWrittenConfusesHalfAndQuarter | Formatter.FormatValueCorrected |

=== FILE: angle_examples.dfy ===
/** Worked examples of angle evaluation and display: concrete expressions
    run through the evaluator and the formatter. */
module AngleExamples {
  import opened Wrappers
  import opened Numbers
  import opened Text
  import opened Syntax
  import opened Evaluator
  import opened Formatter

  function Int(text: NumeralText): Expr {
    Leaf(DecimalIntegerLiteral(text))
  }

  const PiExpr: Expr := Leaf(Identifier("pi"))

  /** `a*pi/b`, grouped to the left as the grammar does. */
  function PiMultiple(a: NumeralText, b: NumeralText): Expr {
    Binary(Binary(Int(a), Asterisk, PiExpr), Slash, Int(b))
  }

  lemma ParseSmall()
    ensures ParseInt("0") == 0 && ParseInt("1") == 1 && ParseInt("2") == 2 && ParseInt("3") == 3
    ensures ParseInt("4") == 4 && ParseInt("5") == 5 && ParseInt("8") == 8
  {
    ParseIntOfNatToString(0);
    ParseIntOfNatToString(1);
    ParseIntOfNatToString(2);
    ParseIntOfNatToString(3);
    ParseIntOfNatToString(4);
    ParseIntOfNatToString(5);
    ParseIntOfNatToString(8);
  }

  /** `k` sixteenths of pi, shown by the reduced fraction `f` as written,
      and by `f` read back once line 87 is corrected. */
  lemma FormatsAs(e: Expr, k: nat, f: Fraction)
    requires Exact(e) == Some(k as real * Pi / 16.0)
    requires LowestSixteenths(f) && f.num * 16 == k * f.denom
    ensures FormatExpression(e) == Success(RenderAsWritten(f))
    ensures FormatExpressionCorrected(e) == Success(Render(f))
  {
    var x := k as real * Pi / 16.0;
    EvaluateAgreesWithExact(e);
    assert Evaluate(e) == Success(Finite(x));
    FormatSixteenths(k);
    ReduceUnique(k, f);
    assert FormatValue(Finite(x)) == Success(RenderAsWritten(f));
    assert FormatValueCorrected(Finite(x)) == Success(Render(f));
  }

  lemma RenderExamples()
    ensures RenderAsWritten(Fraction(1, 1)) == "π"
    ensures RenderAsWritten(Fraction(1, 2)) == "π/${rdenom}" && Render(Fraction(1, 2)) == "π/2"
    ensures RenderAsWritten(Fraction(3, 4)) == "3π/4"
    ensures RenderAsWritten(Fraction(5, 4)) == "5π/4"
    ensures RenderAsWritten(Fraction(0, 1)) == "0π"
  {
    assert NatToString(2) == "2" && NatToString(3) == "3" && NatToString(4) == "4";
    assert NatToString(5) == "5" && NatToString(0) == "0";
  }

  /** `pi` is shown as `π`. */
  lemma PiExample()
    ensures FormatExpression(PiExpr) == Success("π")
  {
    FormatsAs(PiExpr, 16, Fraction(1, 1));
    RenderExamples();
  }

  /** `pi/2` is shown with the literal text of line 87; corrected, it is `π/2`. */
  lemma HalfPiExample()
    ensures FormatExpression(Binary(PiExpr, Slash, Int("2"))) == Success("π/${rdenom}")
    ensures FormatExpressionCorrected(Binary(PiExpr, Slash, Int("2"))) == Success("π/2")
  {
    ParseSmall();
    assert Exact(Binary(PiExpr, Slash, Int("2"))) == Some(8 as real * Pi / 16.0);
    FormatsAs(Binary(PiExpr, Slash, Int("2")), 8, Fraction(1, 2));
    RenderExamples();
  }

  /** `a*pi/4` is shown as `aπ/4` for odd `a` other than 1. */
  lemma QuarterExamples()
    ensures FormatExpression(PiMultiple("3", "4")) == Success("3π/4")
    ensures FormatExpression(PiMultiple("5", "4")) == Success("5π/4")
  {
    ParseSmall();
    assert Exact(PiMultiple("3", "4")) == Some(12 as real * Pi / 16.0);
    assert Exact(PiMultiple("5", "4")) == Some(20 as real * Pi / 16.0);
    FormatsAs(PiMultiple("3", "4"), 12, Fraction(3, 4));
    FormatsAs(PiMultiple("5", "4"), 20, Fraction(5, 4));
    RenderExamples();
  }

  /** An angle of 0 passes the test with numerator 0, which is shown as `0π`. */
  lemma ZeroExample()
    ensures FormatExpression(Int("0")) == Success("0π")
  {
    ParseSmall();
    assert Exact(Int("0")) == Some(0 as real * Pi / 16.0);
    FormatsAs(Int("0"), 0, Fraction(0, 1));
    RenderExamples();
  }

  /** An angle that is no sixteenth of pi is shown with two decimals. */
  lemma TwoDecimalsExample()
    ensures FormatValue(Finite(0.37)) == Success("0.37")
  {
    var t := 0.37 / Pi * 16.0;
    assert t.Floor == 1;
    assert !NearSixteenth(0.37);
    assert RoundHalfUp(0.37 * 100.0) == 37;
    assert NatToString(0) == "0";
    assert HundredthsText(37) == "0.37";
  }

  /** Reading a numeral stops at a digit separator. */
  lemma SeparatedNumeralExample()
    ensures ParseInt("1_000") == 1
  {
    ParseIntStopsAtNonDigit("1", "_000");
    assert "1" + "_000" == "1_000";
  }
}

=== FILE: arithmetic.dfy ===
/** Divisibility facts on natural numbers used to prove Euclid's algorithm. */
module Arithmetic {

  /** `k` is a positive divisor of `n`. */
  predicate Divides(k: nat, n: nat) {
    k > 0 && n % k == 0
  }

  lemma {:induction false} MultipleAtLeast(x: int, b: int)
    requires x >= 1 && b > 0
    ensures x * b >= b
    decreases x
  {
    if x > 1 {
      MultipleAtLeast(x - 1, b);
      assert x * b == (x - 1) * b + b;
    }
  }

  /** Quotient and remainder are unique. */
  lemma DivModUnique(a: int, b: int, q: int, r: int)
    requires b > 0 && 0 <= r < b && a == q * b + r
    ensures a / b == q && a % b == r
  {
    var q', r' := a / b, a % b;
    assert (q - q') * b == r' - r;
    if q > q' {
      MultipleAtLeast(q - q', b);
      assert false;
    }
    if q' > q {
      MultipleAtLeast(q' - q, b);
      assert false;
    }
  }

  lemma MultipleIsDivisible(k: nat, m: int)
    requires k > 0
    ensures (k * m) % k == 0
  {
    DivModUnique(k * m, k, m, 0);
  }

  /** A divisor of `b` and of `a % b` divides `a`. */
  lemma DividesFromRemainder(k: nat, a: nat, b: nat)
    requires b > 0 && Divides(k, b) && Divides(k, a % b)
    ensures Divides(k, a)
  {
    var q, x, y := a / b, b / k, (a % b) / k;
    assert b == x * k;
    assert a % b == y * k;
    assert a == k * (q * x + y);
    MultipleIsDivisible(k, q * x + y);
  }

  /** A common divisor of `a` and `b` divides `a % b`. */
  lemma DividesRemainder(k: nat, a: nat, b: nat)
    requires b > 0 && Divides(k, a) && Divides(k, b)
    ensures Divides(k, a % b)
  {
    var q, x, y := a / b, a / k, b / k;
    assert a == x * k;
    assert b == y * k;
    assert a % b == k * (x - q * y);
    MultipleIsDivisible(k, x - q * y);
  }

  /** One step of Euclid's algorithm keeps the common divisors. */
  lemma EuclidStep(a: nat, b: nat)
    requires b > 0
    ensures forall k: nat :: Divides(k, a) && Divides(k, b) <==> Divides(k, b) && Divides(k, a % b)
  {
    forall k: nat
      ensures Divides(k, a) && Divides(k, b) <==> Divides(k, b) && Divides(k, a % b)
    {
      if Divides(k, a) && Divides(k, b) {
        DividesRemainder(k, a, b);
      }
      if Divides(k, b) && Divides(k, a % b) {
        DividesFromRemainder(k, a, b);
      }
    }
  }

  /** A divisor of a positive number is no larger than it. */
  lemma DivisorAtMost(k: nat, n: nat)
    requires n > 0 && Divides(k, n)
    ensures k <= n
  {
    var q := n / k;
    assert n == q * k;
    if q > 0 {
      MultipleAtLeast(q, k);
    }
  }

  /** Every positive number divides itself and 0. */
  lemma DividesSelfAndZero(n: nat)
    requires n > 0
    ensures Divides(n, n) && Divides(n, 0)
  {
    MultipleIsDivisible(n, 1);
    MultipleIsDivisible(n, 0);
  }

  /** The divisors of 16 are its powers of two. */
  lemma DivisorsOfSixteen(d: nat)
    requires Divides(d, 16)
    ensures d == 1 || d == 2 || d == 4 || d == 8 || d == 16
  {
    DivisorAtMost(d, 16);
    assert d == 1 || d == 2 || d == 3 || d == 4 || d == 5 || d == 6 || d == 7 || d == 8
      || d == 9 || d == 10 || d == 11 || d == 12 || d == 13 || d == 14 || d == 15 || d == 16;
  }
}

=== FILE: bell_example.dfy ===
/** A whole program run through the lowering pass: two qubits, a rotation,
    a controlled X and a measurement. */
module BellExample {
  import opened Wrappers
  import opened Numbers
  import opened Text
  import opened Syntax
  import opened Evaluator
  import opened Formatter
  import opened Circuits
  import opened Registry
  import opened Walker
  import opened Steps
  import opened AngleExamples

  /** `q[i]` */
  function Element(name: string, i: NumeralText): Operand {
    IndexedIdentifier(name, [Int(i)])
  }

  /** `OPENQASM 2.0; qreg q[size]; rz(angle) a; cx a, b; c = measure b;` */
  function BellShape(size: Expr, angle: Expr, a: Operand, b: Operand): seq<TopLevel> {
    [
      VersionNode("2.0"),
      Wrap(OldStyleDeclarationStatement(QReg, "q", Some(size))),
      Wrap(GateCallStatement("rz", [angle], [a])),
      Wrap(GateCallStatement("cx", [], [a, b])),
      Wrap(AssignmentStatement("c", MeasureExpression(b))),
      EndOfFile
    ]
  }

  /** `OPENQASM 2.0; qreg q[2]; rz(pi/2) q[0]; cx q[0], q[1]; c = measure q[1];` */
  const BellProgram: seq<TopLevel> :=
    BellShape(Int("2"), Binary(PiExpr, Slash, Int("2")), Element("q", "0"), Element("q", "1"))

  const BellRegisters: map<string, Register> := map["q" := Sized([0, 1])]

  lemma BellOperands()
    ensures GetQubit(BellRegisters, Element("q", "0")) == Success(Some(0))
    ensures GetQubit(BellRegisters, Element("q", "1")) == Success(Some(1))
  {
    ParseSmall();
    assert Evaluate(Int("0")) == Success(Finite(0.0));
    assert Evaluate(Int("1")) == Success(Finite(1.0));
  }

  const BellFresh: State := State([Qubit(0, false), Qubit(1, false)], BellRegisters, [])
  const BellRotated: State := BellFresh.(operations := [Rotation("RZ", 0, "π/${rdenom}")])
  const BellGates: State := BellFresh.(operations := [Rotation("RZ", 0, "π/${rdenom}"), ControlledX(0, 1)])
  const BellDone: State := State([Qubit(0, false), Qubit(1, true)], BellRegisters,
    [Rotation("RZ", 0, "π/${rdenom}"), ControlledX(0, 1), Measurement(1)])

  /** The program allocates two qubits and lowers to a rotation, a
      controlled X and a measurement of the second qubit. The rotation of
      pi/2 is labelled with the literal text line 87 returns. */
  lemma BellProgramExample()
    ensures Lower(BellProgram) == Success(CircuitModel(BellDone.qubits, BellDone.operations))
    ensures BellDone.qubits == [Qubit(0, false), Qubit(1, true)]
    ensures BellDone.operations == [Rotation("RZ", 0, "π/${rdenom}"), ControlledX(0, 1), Measurement(1)]
  {
    BellProgramParts();
    BellProgramChildren();
    BellWalk(BellProgram, Int("2"), Binary(PiExpr, Slash, Int("2")), Element("q", "0"), Element("q", "1"));
    LowerOfWalk(BellProgram, BellDone);
  }

  lemma BellProgramParts()
    ensures BellParts(Int("2"), Binary(PiExpr, Slash, Int("2")), Element("q", "0"), Element("q", "1"))
  {
    ParseSmall();
    assert Evaluate(Int("2")) == Success(Finite(2.0));
    BellOperands();
    HalfPiExample();
  }

  lemma BellProgramChildren()
    ensures BellChildren(BellProgram, Int("2"), Binary(PiExpr, Slash, Int("2")), Element("q", "0"), Element("q", "1"))
  {
  }

  /** What the walk over the program needs of its parts. */
  predicate BellParts(size: Expr, angle: Expr, a: Operand, b: Operand) {
    && Evaluate(size) == Success(Finite(2.0))
    && GetQubit(BellRegisters, a) == Success(Some(0))
    && GetQubit(BellRegisters, b) == Success(Some(1))
    && FormatExpression(angle) == Success("π/${rdenom}")
  }

  /** The children of a program of that shape, one by one. */
  predicate BellChildren(p: seq<TopLevel>, size: Expr, angle: Expr, a: Operand, b: Operand) {
    && |p| == 6
    && p[0] == VersionNode("2.0")
    && p[1] == Wrap(OldStyleDeclarationStatement(QReg, "q", Some(size)))
    && p[2] == Wrap(GateCallStatement("rz", [angle], [a]))
    && p[3] == Wrap(GateCallStatement("cx", [], [a, b]))
    && p[4] == Wrap(AssignmentStatement("c", MeasureExpression(b)))
  }

  lemma BellWalk(p: seq<TopLevel>, size: Expr, angle: Expr, a: Operand, b: Operand)
    requires BellParts(size, angle, a, b) && BellChildren(p, size, angle, a, b)
    ensures Walk(p, 0, Empty) == Success(BellDone)
  {
    BellDeclaration(size);
    WalkStep(p, 0, Empty, Empty);
    WalkStep(p, 1, Empty, BellFresh);
    BellRotation(angle, a);
    WalkStep(p, 2, BellFresh, BellRotated);
    BellControlled(a, b);
    WalkStep(p, 3, BellRotated, BellGates);
    BellMeasurement(b);
    WalkStep(p, 4, BellGates, BellDone);
    WalkEnd(p, BellDone);
  }

  lemma BellFreshWellFormed()
    ensures WellFormed(BellFresh)
  {
  }

  lemma BellRotatedWellFormed()
    ensures WellFormed(BellRotated)
  {
  }

  lemma BellGatesWellFormed()
    ensures WellFormed(BellGates)
  {
  }

  lemma BellDoneWellFormed()
    ensures WellFormed(BellDone)
  {
    assert Measurement(1) == BellDone.operations[2];
  }

  lemma BellDeclaration(size: Expr)
    requires Evaluate(size) == Success(Finite(2.0))
    ensures WellFormed(Empty)
    ensures Step(Empty, 0, VersionNode("2.0")) == Success(Empty)
    ensures Step(Empty, 1, Wrap(OldStyleDeclarationStatement(QReg, "q", Some(size)))) == Success(BellFresh)
  {
    assert Consecutive(0, 2) == [0, 1];
    assert FreshQubits(0, 2) == [Qubit(0, false), Qubit(1, false)];
    DeclareSizedStep(Empty, 1, "q", size, 2);
    assert Empty.registers["q" := Sized(Consecutive(0, 2))] == BellRegisters;
  }

  lemma BellRotation(angle: Expr, a: Operand)
    requires GetQubit(BellRegisters, a) == Success(Some(0)) && FormatExpression(angle) == Success("π/${rdenom}")
    ensures WellFormed(BellFresh)
    ensures Step(BellFresh, 2, Wrap(GateCallStatement("rz", [angle], [a]))) == Success(BellRotated)
  {
    BellFreshWellFormed();
    RotationStep(BellFresh, 2, "rz", angle, a, 0, "π/${rdenom}");
    assert BellFresh.(operations := BellFresh.operations + [Rotation("RZ", 0, "π/${rdenom}")]) == BellRotated;
  }

  lemma BellControlled(a: Operand, b: Operand)
    requires GetQubit(BellRegisters, a) == Success(Some(0)) && GetQubit(BellRegisters, b) == Success(Some(1))
    ensures WellFormed(BellRotated)
    ensures Step(BellRotated, 3, Wrap(GateCallStatement("cx", [], [a, b]))) == Success(BellGates)
  {
    BellRotatedWellFormed();
    ControlledStep(BellRotated, 3, a, b, 0, 1);
    assert BellRotated.(operations := BellRotated.operations + [ControlledX(0, 1)]) == BellGates;
  }

  lemma BellMeasurement(b: Operand)
    requires GetQubit(BellRegisters, b) == Success(Some(1))
    ensures WellFormed(BellGates)
    ensures Step(BellGates, 4, Wrap(AssignmentStatement("c", MeasureExpression(b)))) == Success(BellDone)
  {
    BellGatesWellFormed();
    MeasureStep(BellGates, 4, "c", b, 1);
    assert BellGates.qubits[1 := Qubit(1, true)] == BellDone.qubits;
    assert BellGates.operations + [Measurement(1)] == BellDone.operations;
  }
}

=== FILE: circuit.dfy ===
/** The records the lowering pass builds: qubits, the register table,
    operations, and the circuit handed to the renderer. */
module Circuits {
  import opened Wrappers

  /** A qubit `{id}`; `measured` stands for the `numChildren = 1` a
      measurement adds to it. */
  datatype Qubit = Qubit(id: nat, measured: bool)

  /** An entry of `qubit_dict`: one qubit for an unsized `qreg`, an array of
      qubits for a sized one. Qubits are named by id. */
  datatype Register = Scalar(qubit: nat) | Sized(qubits: seq<nat>)

  /** A qubit reference in an operation: `{qId}`, or `{type: 1, qId, cId}`
      for the classical result a measurement writes. */
  datatype QubitRef = QuantumRef(qId: nat) | ClassicalRef(qId: nat, cId: nat)

  /** An operation record. A field the source leaves out of the record is
      `false`, empty or `None` here. */
  datatype Operation = Operation(
    gate: string,
    isControlled: bool,
    isMeasurement: bool,
    controls: seq<QubitRef>,
    targets: seq<QubitRef>,
    displayArgs: Option<string>)

  /** The circuit `{qubits, operations}` passed to the renderer. */
  datatype CircuitModel = CircuitModel(qubits: seq<Qubit>, operations: seq<Operation>)

  /** Everything a run accumulates: `qubits`, `qubit_dict` and `operations`. */
  datatype State = State(qubits: seq<Qubit>, registers: map<string, Register>, operations: seq<Operation>)

  /** The state at the start of a run: all three collections empty. */
  const Empty: State := State([], map[], [])

  /** `rz`/`rx`: one target, with the formatted angle. */
  function Rotation(gate: string, target: nat, display: string): Operation {
    Operation(gate, false, false, [], [QuantumRef(target)], Some(display))
  }

  /** `cx`: an `X` on the target controlled by the control qubit. */
  function ControlledX(control: nat, target: nat): Operation {
    Operation("X", true, false, [QuantumRef(control)], [QuantumRef(target)], None)
  }

  /** A measurement of `q` into classical slot 0. */
  function Measurement(q: nat): Operation {
    Operation("Measure", false, true, [QuantumRef(q)], [ClassicalRef(q, 0)], None)
  }

  /** Qubit ids are their positions: 0, 1, 2, ... in allocation order. */
  predicate IdsContiguous(qubits: seq<Qubit>) {
    forall i | 0 <= i < |qubits| :: qubits[i].id == i
  }

  predicate RegisterWithin(r: Register, count: nat) {
    match r
    case Scalar(q) => q < count
    case Sized(qs) => forall j | 0 <= j < |qs| :: qs[j] < count
  }

  predicate OperationWithin(op: Operation, count: nat) {
    && (forall j | 0 <= j < |op.controls| :: op.controls[j].qId < count)
    && (forall j | 0 <= j < |op.targets| :: op.targets[j].qId < count)
  }

  /** A qubit carries the measurement mark exactly when some operation measures it. */
  predicate MarksMatchMeasurements(qubits: seq<Qubit>, operations: seq<Operation>) {
    forall i | 0 <= i < |qubits| :: qubits[i].measured <==> Measurement(i) in operations
  }

  /** The invariant every step of a run keeps: ids are contiguous, every
      register entry and every operation refers to an allocated qubit, and
      the measurement marks agree with the measurement operations. */
  predicate WellFormed(st: State) {
    && IdsContiguous(st.qubits)
    && (forall name | name in st.registers :: RegisterWithin(st.registers[name], |st.qubits|))
    && (forall k | 0 <= k < |st.operations| :: OperationWithin(st.operations[k], |st.qubits|))
    && MarksMatchMeasurements(st.qubits, st.operations)
  }

  /** The same invariant for a finished circuit. */
  predicate WellFormedCircuit(c: CircuitModel) {
    && IdsContiguous(c.qubits)
    && (forall k | 0 <= k < |c.operations| :: OperationWithin(c.operations[k], |c.qubits|))
    && MarksMatchMeasurements(c.qubits, c.operations)
  }

  /** Only allocated qubits are ever measured. */
  lemma MeasuredIsAllocated(st: State, q: nat)
    requires WellFormed(st) && Measurement(q) in st.operations
    ensures q < |st.qubits|
  {
    var k :| 0 <= k < |st.operations| && st.operations[k] == Measurement(q);
    assert OperationWithin(st.operations[k], |st.qubits|);
    assert st.operations[k].controls[0].qId == q;
  }
}

=== FILE: emitter.dfy ===
/** The gate-call and measurement branches of the statement loop: each
    resolves its operands and appends exactly one operation record. */
module Emitter {
  import opened Wrappers
  import opened Syntax
  import opened Errors
  import opened Text
  import opened Formatter
  import opened Circuits
  import opened Registry

  /** `get_qubit` finds a qubit for `operand`: its `.id` can be read. */
  predicate Resolves(registers: map<string, Register>, operand: Operand) {
    var r := GetQubit(registers, operand);
    r.Success? && r.value.Some?
  }

  /** The qubit `operand` resolves to. */
  function Resolved(registers: map<string, Register>, operand: Operand): nat
    requires Resolves(registers, operand)
  {
    GetQubit(registers, operand).value.value
  }

  /** `st'` is `st` with `op` appended to the operations and nothing else changed. */
  predicate AppendsOperation(st: State, st': State, op: Operation) {
    st' == st.(operations := st.operations + [op])
  }

  /** The gate-call branch (lines 155-184). `rz` and `rx` target the qubit of
      their first operand and show their first argument; `cx` controls the
      qubit of its second operand by that of its first. Any other gate name
      throws. An operand that resolves to no qubit fails when its `.id` is
      read, which for `rz`/`rx` comes before the angle is formatted. */
  function EmitGateCall(st: State, gate: string, arguments: seq<Expr>, operands: seq<Operand>): (r: Result<State, Error>)
    requires WellFormed(st)
    ensures r.Success? ==> WellFormed(r.value)
    ensures gate != "rz" && gate != "rx" && gate != "cx" ==> r == Failure(UnexpectedGate(gate))
    ensures gate == "rz" || gate == "rx" ==>
      (r.Success? <==> operands != [] && Resolves(st.registers, operands[0])
                       && arguments != [] && FormatExpression(arguments[0]).Success?)
    ensures (gate == "rz" || gate == "rx" || gate == "cx") && operands == [] ==> r == Failure(MissingOperand)
    ensures (gate == "rz" || gate == "rx") && operands != [] && GetQubit(st.registers, operands[0]).Failure? ==>
      r == Failure(GetQubit(st.registers, operands[0]).error)
    ensures (gate == "rz" || gate == "rx") && operands != [] && GetQubit(st.registers, operands[0]) == Success(None) ==>
      r == Failure(NoSuchQubit)
    ensures (gate == "rz" || gate == "rx") && operands != [] && Resolves(st.registers, operands[0]) && arguments == [] ==>
      r == Failure(MissingArgument)
    ensures (gate == "rz" || gate == "rx") && operands != [] && Resolves(st.registers, operands[0]) && arguments != []
            && FormatExpression(arguments[0]).Failure? ==>
      r == Failure(FormatExpression(arguments[0]).error)
    ensures (gate == "rz" || gate == "rx") && r.Success? ==>
      AppendsOperation(st, r.value,
        Rotation(if gate == "rz" then "RZ" else "RX", Resolved(st.registers, operands[0]), FormatExpression(arguments[0]).value))
    ensures gate == "cx" ==>
      (r.Success? <==> |operands| >= 2 && Resolves(st.registers, operands[0]) && Resolves(st.registers, operands[1]))
    ensures gate == "cx" && operands != [] && GetQubit(st.registers, operands[0]).Failure? ==>
      r == Failure(GetQubit(st.registers, operands[0]).error)
    ensures gate == "cx" && |operands| == 1 && GetQubit(st.registers, operands[0]).Success? ==>
      r == Failure(MissingOperand)
    ensures gate == "cx" && |operands| >= 2 && GetQubit(st.registers, operands[0]).Success?
            && GetQubit(st.registers, operands[1]).Failure? ==>
      r == Failure(GetQubit(st.registers, operands[1]).error)
    ensures gate == "cx" && |operands| >= 2 && GetQubit(st.registers, operands[0]).Success?
            && GetQubit(st.registers, operands[1]).Success?
            && (GetQubit(st.registers, operands[0]).value.None? || GetQubit(st.registers, operands[1]).value.None?) ==>
      r == Failure(NoSuchQubit)
    ensures gate == "cx" && r.Success? ==>
      AppendsOperation(st, r.value, ControlledX(Resolved(st.registers, operands[0]), Resolved(st.registers, operands[1])))
  {
    if gate == "rz" || gate == "rx" then
      if operands == [] then Failure(MissingOperand)
      else
        var q :- GetQubit(st.registers, operands[0]);
        if q.None? then Failure(NoSuchQubit)
        else if arguments == [] then Failure(MissingArgument)
        else
          var display :- FormatExpression(arguments[0]);
          ResolvedIsAllocated(st, operands[0]);
          var op := Rotation(AsciiUpper(gate), q.value, display);
          UpperRotationNames();
          AppendPreservesWellFormed(st, op);
          Success(st.(operations := st.operations + [op]))
    else if gate == "cx" then
      if operands == [] then Failure(MissingOperand)
      else
        var q0 :- GetQubit(st.registers, operands[0]);
        if |operands| < 2 then Failure(MissingOperand)
        else
          var q1 :- GetQubit(st.registers, operands[1]);
          if q0.None? || q1.None? then Failure(NoSuchQubit)
          else
            ResolvedIsAllocated(st, operands[0]);
            ResolvedIsAllocated(st, operands[1]);
            var op := ControlledX(q0.value, q1.value);
            AppendPreservesWellFormed(st, op);
            Success(st.(operations := st.operations + [op]))
    else
      Failure(UnexpectedGate(gate))
  }

  /** Appending a gate that is not a measurement and refers to allocated
      qubits keeps the invariant. */
  lemma AppendPreservesWellFormed(st: State, op: Operation)
    requires WellFormed(st) && OperationWithin(op, |st.qubits|) && !op.isMeasurement
    ensures WellFormed(st.(operations := st.operations + [op]))
  {
    var ops := st.operations + [op];
    forall i | 0 <= i < |st.qubits|
      ensures st.qubits[i].measured <==> Measurement(i) in ops
    {
      assert Measurement(i) in ops <==> Measurement(i) in st.operations;
    }
    forall k | 0 <= k < |ops|
      ensures OperationWithin(ops[k], |st.qubits|)
    {
      if k < |st.operations| {
        assert ops[k] == st.operations[k];
      }
    }
  }

  /** The assignment branch (lines 185-197): the right-hand side must be a
      measurement of an indexed identifier. Its qubit gets the measurement
      mark, and a `Measure` operation with that qubit as sole control and
      sole target is appended; no other qubit changes. */
  function EmitMeasurement(st: State, value: AssignedValue): (r: Result<State, Error>)
    requires WellFormed(st)
    ensures r.Success? ==> WellFormed(r.value)
    ensures value.PlainExpression? ==> r == Failure(NotMeasurement)
    ensures value.MeasureExpression? && value.operand.HardwareQubit? ==> r == Failure(MeasuredHardwareQubit)
    ensures value.MeasureExpression? && value.operand.IndexedIdentifier? && GetQubit(st.registers, value.operand).Failure? ==>
      r == Failure(GetQubit(st.registers, value.operand).error)
    ensures value.MeasureExpression? && value.operand.IndexedIdentifier? && GetQubit(st.registers, value.operand) == Success(None) ==>
      r == Failure(NoSuchQubit)
    ensures r.Success? <==> value.MeasureExpression? && Resolves(st.registers, value.operand)
    ensures r.Success? ==>
      var q := Resolved(st.registers, value.operand);
      && q < |st.qubits|
      && r.value.registers == st.registers
      && r.value.operations == st.operations + [Measurement(q)]
      && |r.value.qubits| == |st.qubits|
      && r.value.qubits[q] == Qubit(q, true)
      && (forall i | 0 <= i < |st.qubits| && i != q :: r.value.qubits[i] == st.qubits[i])
  {
    match value
    case PlainExpression(_) => Failure(NotMeasurement)
    case MeasureExpression(operand) =>
      if operand.HardwareQubit? then Failure(MeasuredHardwareQubit)
      else
        var q :- GetQubit(st.registers, operand);
        if q.None? then Failure(NoSuchQubit)
        else
          var id := q.value;
          ResolvedIsAllocated(st, operand);
          var st' := State(st.qubits[id := Qubit(id, true)], st.registers, st.operations + [Measurement(id)]);
          MeasurePreservesWellFormed(st, id, st');
          Success(st')
  }

  lemma MeasurePreservesWellFormed(st: State, q: nat, st': State)
    requires WellFormed(st) && q < |st.qubits|
    requires st' == State(st.qubits[q := Qubit(q, true)], st.registers, st.operations + [Measurement(q)])
    ensures WellFormed(st')
  {
    forall i | 0 <= i < |st'.qubits|
      ensures st'.qubits[i].measured <==> Measurement(i) in st'.operations
    {
      if i != q {
        assert Measurement(i) in st'.operations <==> Measurement(i) in st.operations;
      }
    }
    forall k | 0 <= k < |st'.operations|
      ensures OperationWithin(st'.operations[k], |st'.qubits|)
    {
      if k < |st.operations| {
        assert st'.operations[k] == st.operations[k];
      }
    }
  }
}

=== FILE: errors.dfy ===
/** Why a lowering run aborts: one constructor per `throw` of
    examples/qasmViewer.js, and one per runtime TypeError or RangeError the
    code provokes on inputs it does not check. */
module Errors {

  datatype Error =
    // thrown by the code itself
    | UnknownVersion(version: string)   // version other than 2.0
    | UnexpectedElement                 // program child that is neither a leading version nor a statementOrScope wrapping a statement
    | UnexpectedStatement               // statement rule outside the four handled ones
    | UnexpectedGate(gate: string)      // gate name other than rz, rx, cx
    | UnknownIdentifier(name: string)   // identifier other than `pi` in an expression
    | UnknownSymbol                     // leading token that is neither a literal nor an identifier
    | NotIndexedIdentifier              // `get_qubit` given an operand that is not an indexed identifier
    // raised by the JavaScript runtime
    | InvalidArrayLength                // RangeError: register size of 2^32 or more
    | MalformedExpression               // TypeError: node whose first child lacks the part read from it
    | MissingIndex                      // TypeError: operand without an index operator
    | UndeclaredRegister(name: string)  // TypeError: indexing `qubit_dict[name]` for an undeclared name
    | NoSuchQubit                       // TypeError: reading `.id` of the undefined an unresolved operand yields
    | MissingOperand                    // TypeError: `cx` with fewer than two operands
    | MissingArgument                   // TypeError: `rz`/`rx` without an argument list
    | UndefinedAngle                    // TypeError: `toFixed` on the undefined an unknown operator yields
    | NotMeasurement                    // TypeError: assignment whose right-hand side is not a measurement
    | MeasuredHardwareQubit             // TypeError: measurement of an operand that is not an indexed identifier
}

=== FILE: evaluator.dfy ===
/** `evaluate_expression`: reduces an expression node to a JavaScript value. */
module Evaluator {
  import opened Wrappers
  import opened Numbers
  import opened Syntax
  import opened Errors
  import Text

  /** The expressions `evaluate_expression` returns a value for: binary nodes
      over such expressions (with any operator token), numeric literals and
      the identifier `pi`. */
  predicate Evaluable(e: Expr) {
    match e
    case Binary(lhs, _, rhs) => Evaluable(lhs) && Evaluable(rhs)
    case Leaf(t) => t.DecimalIntegerLiteral? || t.FloatLiteral? || t == Identifier("pi")
    case _ => false
  }

  /** Whether `e` fails with one of the errors the evaluator can raise. */
  predicate IsEvaluationError(err: Error) {
    err.UnknownIdentifier? || err.UnknownSymbol? || err.MalformedExpression?
  }

  /** A three-child node evaluates its left operand, then its right one, and
      combines them with `/` or `*`; any other operator token falls through
      both tests and the node yields `undefined`. A leaf reads its token: an
      integer literal through `parseInt`, a float literal through
      `parseFloat`, the identifier `pi` as `Math.PI`. */
  function Evaluate(e: Expr): (r: Result<Value, Error>)
    ensures r.Success? <==> Evaluable(e)
    ensures r.Failure? ==> IsEvaluationError(r.error)
    ensures r.Success? && r.value.Undefined? ==> e.Binary? && e.op != Slash && e.op != Asterisk
    ensures e.Leaf? && e.first == Identifier("pi") ==> r == Success(Finite(Pi))
    ensures e.Leaf? && e.first.Identifier? && e.first.name != "pi" ==> r == Failure(UnknownIdentifier(e.first.name))
    ensures e.Leaf? && (e.first.Slash? || e.first.Asterisk? || e.first.OtherSymbol?) ==> r == Failure(UnknownSymbol)
    ensures e.Parenthesized? || e.Compound? ==> r == Failure(MalformedExpression)
  {
    match e
    case Binary(lhs, op, rhs) =>
      var a :- Evaluate(lhs);
      var b :- Evaluate(rhs);
      if op == Slash then Success(Divide(a, b))
      else if op == Asterisk then Success(Multiply(a, b))
      else Success(Undefined)
    case Leaf(t) =>
      (match t
       case DecimalIntegerLiteral(text) => Success(Finite(Text.ParseInt(text) as real))
       case FloatLiteral(v) => Success(Finite(v))
       case Identifier(name) => if name == "pi" then Success(Finite(Pi)) else Failure(UnknownIdentifier(name))
       case _ => Failure(UnknownSymbol))
    case Parenthesized(_) => Failure(MalformedExpression)
    case Compound(_) => Failure(MalformedExpression)
  }

  /** A three-child node evaluates its left operand first: its error wins
      over one of the right operand, which is looked at only afterwards. */
  lemma LeftOperandFirst(e: Expr)
    requires e.Binary?
    ensures !Evaluable(e.lhs) ==> Evaluate(e) == Failure(Evaluate(e.lhs).error)
    ensures Evaluable(e.lhs) && !Evaluable(e.rhs) ==> Evaluate(e) == Failure(Evaluate(e.rhs).error)
  {
  }

  /** Reference semantics in plain real arithmetic: the value of an
      expression built from numeric literals, `pi`, `*` and `/`, or `None`
      when it has another shape or divides by zero. */
  function Exact(e: Expr): Option<NonNegReal> {
    match e
    case Leaf(DecimalIntegerLiteral(text)) => Some(Text.ParseInt(text) as real)
    case Leaf(FloatLiteral(v)) => Some(v)
    case Leaf(Identifier(name)) => if name == "pi" then Some(Pi) else None
    case Binary(lhs, op, rhs) =>
      if op != Slash && op != Asterisk then None
      else
        (match (Exact(lhs), Exact(rhs))
         case (Some(x), Some(y)) =>
           if op == Asterisk then Some(Product(x, y))
           else if y != 0.0 then Some(Quotient(x, y))
           else None
         case _ => None)
    case _ => None
  }

  /** `x * y` and `x / y` as named functions, so that the solver treats the
      products and quotients of the reference semantics as opaque terms. */
  function Product(x: NonNegReal, y: NonNegReal): NonNegReal {
    x * y
  }

  function Quotient(x: NonNegReal, y: NonNegReal): NonNegReal
    requires y != 0.0
  {
    x / y
  }

  /** Where plain arithmetic is defined, the evaluator agrees with it: no
      special value and no `undefined` arise. */
  lemma {:induction false} EvaluateAgreesWithExact(e: Expr)
    ensures Exact(e).Some? ==> Evaluate(e) == Success(Finite(Exact(e).value))
  {
    if e.Binary? && Exact(e).Some? {
      EvaluateAgreesWithExact(e.lhs);
      EvaluateAgreesWithExact(e.rhs);
      var x, y := Exact(e.lhs).value, Exact(e.rhs).value;
      BinaryOfFinite(e, x, y);
    }
  }

  /** A `*` or `/` node over two finite operands combines them exactly. */
  lemma BinaryOfFinite(e: Expr, x: NonNegReal, y: NonNegReal)
    requires e.Binary? && (e.op == Slash || e.op == Asterisk)
    requires Evaluate(e.lhs) == Success(Finite(x)) && Evaluate(e.rhs) == Success(Finite(y))
    requires e.op == Slash ==> y != 0.0
    ensures e.op == Asterisk ==> Evaluate(e) == Success(Finite(Product(x, y)))
    ensures e.op == Slash ==> Evaluate(e) == Success(Finite(Quotient(x, y)))
  {
    if e.op == Asterisk {
      ProductOfFinite(e, x, y);
    } else {
      QuotientOfFinite(e, x, y);
    }
  }

  /** A `*` node over two numbers evaluates to their exact product. */
  lemma ProductOfFinite(e: Expr, x: NonNegReal, y: NonNegReal)
    requires e.Binary? && e.op == Asterisk
    requires Evaluate(e.lhs) == Success(Finite(x)) && Evaluate(e.rhs) == Success(Finite(y))
    ensures Evaluate(e) == Success(Finite(Product(x, y)))
  {
    EvaluateProduct(e);
    MultiplyFinite(x, y);
  }

  /** A `/` node over two numbers, the divisor non-zero, evaluates to their exact quotient. */
  lemma QuotientOfFinite(e: Expr, x: NonNegReal, y: NonNegReal)
    requires e.Binary? && e.op == Slash && y != 0.0
    requires Evaluate(e.lhs) == Success(Finite(x)) && Evaluate(e.rhs) == Success(Finite(y))
    ensures Evaluate(e) == Success(Finite(Quotient(x, y)))
  {
    EvaluateQuotient(e);
    assert Divide(Finite(x), Finite(y)) == Finite(Quotient(x, y));
  }

  /** A `*` node over two operands that evaluate is their JavaScript product. */
  lemma EvaluateProduct(e: Expr)
    requires e.Binary? && e.op == Asterisk && Evaluable(e.lhs) && Evaluable(e.rhs)
    ensures Evaluate(e) == Success(Multiply(Evaluate(e.lhs).value, Evaluate(e.rhs).value))
  {
  }

  /** A `/` node over two operands that evaluate is their JavaScript quotient. */
  lemma EvaluateQuotient(e: Expr)
    requires e.Binary? && e.op == Slash && Evaluable(e.lhs) && Evaluable(e.rhs)
    ensures Evaluate(e) == Success(Divide(Evaluate(e.lhs).value, Evaluate(e.rhs).value))
  {
  }

  /** Whether every operator token in `e` is `*` or `/`. */
  predicate MultiplicativeOnly(e: Expr) {
    match e
    case Binary(lhs, op, rhs) => (op == Slash || op == Asterisk) && MultiplicativeOnly(lhs) && MultiplicativeOnly(rhs)
    case _ => true
  }

  /** `undefined` comes only from an operator other than `*` and `/`. */
  lemma MultiplicativeIsDefined(e: Expr)
    requires Evaluable(e) && MultiplicativeOnly(e)
    ensures Evaluate(e).value != Undefined
  {
  }
}

=== FILE: formatter.dfy ===
/** `format_expression` with `gcd`: the text shown for a rotation angle.

    The angle is evaluated, divided by `Math.PI` and scaled by 16. When that
    is within 0.00001 above a whole number `num`, the fraction `num/16` is
    reduced by `gcd(num, 16)` and shown as a multiple of pi; otherwise the
    angle is shown with two decimals. */
module Formatter {
  import opened Wrappers
  import opened Numbers
  import opened Syntax
  import opened Errors
  import opened Text
  import opened Arithmetic
  import opened Evaluator

  /** `gcd(a, b)`: Euclid's algorithm, its loop written as tail recursion.
      The result is the greatest common divisor: it divides both arguments
      and every common divisor divides it. */
  function Gcd(a: nat, b: nat): (d: nat)
    ensures a > 0 || b > 0 ==> Divides(d, a) && Divides(d, b)
    ensures forall k: nat :: Divides(k, a) && Divides(k, b) ==> Divides(k, d)
    decreases b
  {
    if b == 0 then
      if a > 0 then DividesSelfAndZero(a); a else a
    else
      EuclidStep(a, b);
      Gcd(b, a % b)
  }

  /** A fraction `num/denom`, as reduced by the formatter. */
  datatype Fraction = Fraction(num: nat, denom: nat)

  /** `num/16` reduced by `d = gcd(num, 16)`. The denominator is a power of
      two up to 16, the value is unchanged, the denominator is 1 exactly when
      16 divides `num`, and the fraction is in lowest terms. */
  function Reduce(num: nat): (f: Fraction)
    ensures f.denom == 1 || f.denom == 2 || f.denom == 4 || f.denom == 8 || f.denom == 16
    ensures f.num * 16 == num * f.denom
    ensures f.denom == 1 <==> num % 16 == 0
    ensures f.denom != 1 ==> f.num % 2 == 1
  {
    var d := Gcd(num, 16);
    GcdWithSixteen(num);
    DivideBoth(num, d);
    Fraction(num / d, 16 / d)
  }

  /** Dividing `num` and 16 by a common power of two keeps the ratio. */
  lemma DivideBoth(num: nat, d: nat)
    requires (d == 1 || d == 2 || d == 4 || d == 8 || d == 16) && num % d == 0
    ensures (num / d) * 16 == num * (16 / d)
  {
    var q := num / d;
    assert num == d * q;
    if d == 1 {
    } else if d == 2 {
      assert q * 16 == num * 8;
    } else if d == 4 {
      assert q * 16 == num * 4;
    } else if d == 8 {
      assert q * 16 == num * 2;
    }
  }

  lemma GcdWithSixteen(num: nat)
    ensures var d := Gcd(num, 16);
      && (d == 1 || d == 2 || d == 4 || d == 8 || d == 16)
      && num % d == 0
      && (d == 16 <==> num % 16 == 0)
      && (d != 16 ==> (num / d) % 2 == 1)
  {
    var d := Gcd(num, 16);
    assert Divides(d, num) && Divides(d, 16);
    DivisorsOfSixteen(d);
    if num % 16 == 0 {
      DividesSelfAndZero(16);
      assert Divides(16, d);
      DivisorAtMost(16, d);
    }
    if d != 16 && (num / d) % 2 == 0 {
      DoubleDivides(num, d);
      assert Divides(2 * d, d);
      DivisorAtMost(2 * d, d);
      assert false;
    }
  }

  /** When `num/d` is even, twice `d` divides both `num` and 16. */
  lemma DoubleDivides(num: nat, d: nat)
    requires d == 1 || d == 2 || d == 4 || d == 8
    requires num % d == 0 && (num / d) % 2 == 0
    ensures Divides(2 * d, num) && Divides(2 * d, 16)
  {
    var r := (num / d) / 2;
    if d == 1 {
      DivModUnique(num, 2, r, 0);
    } else if d == 2 {
      assert num == 4 * r;
      DivModUnique(num, 4, r, 0);
    } else if d == 4 {
      assert num == 8 * r;
      DivModUnique(num, 8, r, 0);
    } else {
      assert num == 16 * r;
      DivModUnique(num, 16, r, 0);
    }
  }

  /** A lowest-terms fraction whose denominator is a power of two up to 16. */
  predicate LowestSixteenths(f: Fraction) {
    && (f.denom == 1 || f.denom == 2 || f.denom == 4 || f.denom == 8 || f.denom == 16)
    && (f.denom == 1 || f.num % 2 == 1)
  }

  /** The denominator `num/16` has in lowest terms, read off the powers of
      two that divide `num`. */
  function LowestDenominator(num: nat): nat {
    if num % 16 == 0 then 1
    else if num % 8 == 0 then 2
    else if num % 4 == 0 then 4
    else if num % 2 == 0 then 8
    else 16
  }

  lemma DenominatorIsDetermined(num: nat, f: Fraction)
    requires LowestSixteenths(f) && f.num * 16 == num * f.denom
    ensures f.denom == LowestDenominator(num)
  {
    var d := f.denom;
    if d == 1 {
      assert num * d == num;
    } else if d == 2 {
      assert num * d == num * 2;
    } else if d == 4 {
      assert num * d == num * 4;
    } else if d == 8 {
      assert num * d == num * 8;
    } else {
      assert num * d == num * 16;
    }
  }

  /** The reduced form is the only lowest-terms fraction with a power-of-two
      denominator up to 16 that equals `num/16`. */
  lemma ReduceUnique(num: nat, f: Fraction)
    requires LowestSixteenths(f) && f.num * 16 == num * f.denom
    ensures Reduce(num) == f
  {
    var g := Reduce(num);
    DenominatorIsDetermined(num, f);
    DenominatorIsDetermined(num, g);
  }

  /** The sign the formatter writes for pi. */
  const PiSign: char := 'π'

  /** Lines 77-92 exactly as written. The branch for numerator 1 over a
      denominator other than 1 returns a double-quoted string, so its
      `${rdenom}` is literal text rather than the denominator. */
  function RenderAsWritten(f: Fraction): string {
    if f.denom == 1 then
      if f.num == 1 then "π" else NatToString(f.num) + "π"
    else
      if f.num == 1 then "π/${rdenom}" else NatToString(f.num) + "π/" + NatToString(f.denom)
  }

  /** Lines 77-92 with the numerator-1 branch rendering its denominator, as
      the neighbouring branch does. Used by `FormatValueCorrected`; the pass
      itself uses `RenderAsWritten`. */
  function Render(f: Fraction): string {
    if f.denom == 1 then
      if f.num == 1 then "π" else NatToString(f.num) + "π"
    else
      if f.num == 1 then "π/" + NatToString(f.denom) else NatToString(f.num) + "π/" + NatToString(f.denom)
  }

  /** Position of the first pi sign in `s`. */
  function IndexOfPi(s: string): (r: Option<nat>)
    ensures r.Some? ==> r.value < |s| && s[r.value] == PiSign && PiSign !in s[..r.value]
    ensures r.None? ==> PiSign !in s
  {
    if |s| == 0 then None
    else if s[0] == PiSign then Some(0)
    else
      match IndexOfPi(s[1..])
      case Some(i) => assert s[..i + 1] == [s[0]] + s[1..][..i]; Some(i + 1)
      case None => assert s == [s[0]] + s[1..]; None
  }

  /** Reads the text around the pi sign back as a fraction: an empty
      numerator means 1, an empty denominator part means 1, otherwise the
      denominator follows a slash. */
  function ParsePiFraction(s: string): Option<Fraction> {
    match IndexOfPi(s)
    case None => None
    case Some(i) =>
      var before, after := s[..i], s[i + 1..];
      if !AllDigits(before) then None
      else
        var num := if |before| == 0 then 1 else DigitsValue(before);
        if |after| == 0 then Some(Fraction(num, 1))
        else if after[0] == '/' && |after| > 1 && AllDigits(after[1..]) then Some(Fraction(num, DigitsValue(after[1..])))
        else None
  }

  lemma {:induction false} PiNotInDigits(s: string)
    requires AllDigits(s)
    ensures PiSign !in s
  {
    forall i | 0 <= i < |s|
      ensures s[i] != PiSign
    {
      assert IsDigit(s[i]);
    }
  }

  lemma SplitAtPi(before: string, after: string)
    requires AllDigits(before)
    ensures IndexOfPi(before + [PiSign] + after) == Some(|before|)
    ensures (before + [PiSign] + after)[..|before|] == before
    ensures (before + [PiSign] + after)[|before| + 1..] == after
  {
    var s := before + [PiSign] + after;
    PiNotInDigits(before);
    assert s[..|before|] == before;
    IndexOfPiFirst(s, |before|);
  }

  lemma {:induction false} IndexOfPiFirst(s: string, i: nat)
    requires i < |s| && s[i] == PiSign && PiSign !in s[..i]
    ensures IndexOfPi(s) == Some(i)
    decreases i
  {
    if i > 0 {
      assert s[0] in s[..i];
      assert s[1..][..i - 1] == s[1..i];
      assert forall c | c in s[1..i] :: c in s[..i];
      IndexOfPiFirst(s[1..], i - 1);
    }
  }

  /** The rendering can be read back: every fraction is recovered from its text. */
  lemma ParseRender(f: Fraction)
    ensures ParsePiFraction(Render(f)) == Some(f)
  {
    var before := if f.num == 1 then "" else NatToString(f.num);
    var after := if f.denom == 1 then "" else "/" + NatToString(f.denom);
    assert Render(f) == before + [PiSign] + after;
    SplitAtPi(before, after);
    DigitsValueOfNatToString(f.num);
    DigitsValueOfNatToString(f.denom);
    if f.denom != 1 {
      assert after[1..] == NatToString(f.denom);
    }
  }

  /** Distinct multiples of pi/16 are rendered differently. */
  lemma RenderReduceInjective(m: nat, n: nat)
    requires Render(Reduce(m)) == Render(Reduce(n))
    ensures m == n
  {
    ParseRender(Reduce(m));
    ParseRender(Reduce(n));
    var f := Reduce(m);
    assert f == Reduce(n);
    SameMultiple(m, n, f.denom, f.num * 16);
  }

  lemma SameMultiple(m: nat, n: nat, d: nat, p: nat)
    requires d > 0 && m * d == p && n * d == p
    ensures m == n
  {
    if m < n {
      assert (n - m) * d == 0;
      MultipleAtLeast(n - m, d);
    } else if n < m {
      assert (m - n) * d == 0;
      MultipleAtLeast(m - n, d);
    }
  }

  /** As written, numerator 1 over any denominator above 1 gives the same
      text, which names no denominator and cannot be read back. */
  lemma AsWrittenLosesDenominator(f: Fraction)
    requires f.num == 1 && f.denom != 1
    ensures RenderAsWritten(f) == "π/${rdenom}"
    ensures ParsePiFraction(RenderAsWritten(f)) == None
  {
    SplitAtPi("", "/${rdenom}");
    assert !IsDigit("/${rdenom}"[1]);
  }

  /** As written, pi/2 and pi/4 are shown alike, so the displayed angle no
      longer determines the rotation. */
  lemma AsWrittenConfusesHalfAndQuarter()
    ensures Reduce(8) == Fraction(1, 2) && Reduce(4) == Fraction(1, 4)
    ensures RenderAsWritten(Reduce(8)) == RenderAsWritten(Reduce(4))
  {
    ReduceUnique(8, Fraction(1, 2));
    ReduceUnique(4, Fraction(1, 4));
  }

  /** Outside that branch the text as written and the corrected text agree. */
  lemma AsWrittenAgreesElsewhere(f: Fraction)
    requires f.num != 1 || f.denom == 1
    ensures RenderAsWritten(f) == Render(f)
  {
  }

  /** `Math.round` for a non-negative number: halves round up. */
  function RoundHalfUp(t: NonNegReal): (n: nat)
    ensures t - 0.5 < n as real <= t + 0.5
  {
    (t + 0.5).Floor
  }

  /** `x.toFixed(2)`: the nearest multiple of 0.01 (the larger on a tie),
      written with its integer part, a point and two digits. */
  function ToFixed2(x: NonNegReal): (s: string)
    ensures |s| >= 4 && s[|s| - 3] == '.'
    ensures AllDigits(s[..|s| - 3]) && AllDigits(s[|s| - 2..])
    ensures var n := DigitsValue(s[..|s| - 3]) * 100 + DigitsValue(s[|s| - 2..]);
      x - 0.005 < n as real / 100.0 <= x + 0.005
    ensures s[0] == '0' ==> s[1] == '.'
  {
    HundredthsText(RoundHalfUp(x * 100.0))
  }

  /** The text of `n` hundredths: the digits of `n` with a point before the
      last two, padded with zeros to at least three digits. */
  function HundredthsText(n: nat): (s: string)
    ensures |s| >= 4 && s[|s| - 3] == '.'
    ensures AllDigits(s[..|s| - 3]) && AllDigits(s[|s| - 2..])
    ensures DigitsValue(s[..|s| - 3]) * 100 + DigitsValue(s[|s| - 2..]) == n
    ensures s[0] == '0' ==> s[1] == '.'
  {
    var whole, cents := NatToString(n / 100), TwoDigits(n % 100);
    var s := whole + "." + cents;
    assert s[0] == whole[0] && (|whole| == 1 ==> s[1] == '.');
    assert s[..|s| - 3] == whole;
    assert s[|s| - 2..] == cents;
    DigitsValueOfNatToString(n / 100);
    s
  }

  /** The two digits of a number below 100, with a leading zero if need be. */
  function TwoDigits(n: nat): (s: string)
    requires n < 100
    ensures |s| == 2 && AllDigits(s) && DigitsValue(s) == n
  {
    var tens, units := DigitChar(n / 10), DigitChar(n % 10);
    assert [tens, units][..1] == [tens];
    assert DigitsValue([tens]) == n / 10 by {
      assert [tens][..0] == [];
    }
    [tens, units]
  }

  /** `(t % 1)` for a non-negative `t`. */
  function FractionalPart(t: NonNegReal): real {
    t - t.Floor as real
  }

  /** The tolerance of the test at line 71. */
  const Tolerance: real := 0.00001

  /** The test at line 71: the angle over pi, times 16, lies within the
      tolerance above a whole number. */
  predicate NearSixteenth(x: NonNegReal) {
    FractionalPart(x / Pi * 16.0) < Tolerance
  }

  lemma {:induction false} NoPiInFixed(x: NonNegReal)
    ensures PiSign !in ToFixed2(x)
  {
    var s := ToFixed2(x);
    PiNotInDigits(s[..|s| - 3]);
    PiNotInDigits(s[|s| - 2..]);
    assert s == s[..|s| - 3] + ['.'] + s[|s| - 2..];
  }

  /** The numerator of the test at line 71: the whole number of sixteenths
      of pi just below the angle. */
  function Sixteenths(x: NonNegReal): nat {
    (x / Pi * 16.0).Floor
  }

  /** For a value that passes the test, `Math.round` finds the whole number
      just below it. */
  lemma RoundNearSixteenth(x: NonNegReal)
    requires NearSixteenth(x)
    ensures RoundHalfUp(x / Pi * 16.0) == Sixteenths(x)
  {
  }

  /** The text for an evaluated angle (lines 69-96 as written). NaN and
      Infinity fail the test and `toFixed` writes their names; `undefined`
      has no `toFixed` and raises a TypeError. A number that passes the test
      is shown by rendering, as written, its whole number of sixteenths in
      lowest terms; any other number is shown by `toFixed(2)`. */
  function FormatValue(v: Value): (r: Result<string, Error>)
    ensures r.Failure? <==> v.Undefined?
    ensures r.Failure? ==> r.error == UndefinedAngle
    ensures v.NaN? ==> r == Success("NaN")
    ensures v.Infinity? ==> r == Success("Infinity")
    ensures v.Finite? ==> (PiSign in r.value <==> NearSixteenth(v.x))
    ensures v.Finite? && !NearSixteenth(v.x) ==> r == Success(ToFixed2(v.x))
  {
    match v
    case Undefined => Failure(UndefinedAngle)
    case NaN => Success("NaN")
    case Infinity => Success("Infinity")
    case Finite(x) =>
      var sixteenths := x / Pi * 16.0;
      if FractionalPart(sixteenths) < Tolerance then
        var f := Reduce(RoundHalfUp(sixteenths));
        assert RenderAsWritten(f)[if f.num == 1 then 0 else |NatToString(f.num)|] == PiSign;
        Success(RenderAsWritten(f))
      else
        NoPiInFixed(x);
        Success(ToFixed2(x))
  }

  /** A number that passes the test at line 71 is shown by rendering, as
      written, its whole number of sixteenths in lowest terms. */
  lemma FormatNearSixteenth(x: NonNegReal)
    requires NearSixteenth(x)
    ensures FormatValue(Finite(x)) == Success(RenderAsWritten(Reduce(Sixteenths(x))))
  {
    RoundNearSixteenth(x);
  }

  /** Lines 69-96 with line 87 corrected: the same test and the same
      decimals, but a multiple of pi is shown by `Render`, so its text reads
      back as the lowest-terms fraction of its sixteenths. */
  function FormatValueCorrected(v: Value): (r: Result<string, Error>)
    ensures r.Failure? <==> v.Undefined?
    ensures v.Finite? && !NearSixteenth(v.x) ==> r == Success(ToFixed2(v.x))
    ensures v.Finite? && NearSixteenth(v.x) ==> r.Success? && ParsePiFraction(r.value) == Some(Reduce(Sixteenths(v.x)))
  {
    match v
    case Finite(x) =>
      if NearSixteenth(x) then
        var f := Reduce(RoundHalfUp(x / Pi * 16.0));
        RoundNearSixteenth(x);
        ParseRender(f);
        Success(Render(f))
      else FormatValue(v)
    case _ => FormatValue(v)
  }

  /** Corrected, a number that passes the test is shown by `Render`. */
  lemma CorrectedNearSixteenth(x: NonNegReal)
    requires NearSixteenth(x)
    ensures FormatValueCorrected(Finite(x)) == Success(Render(Reduce(Sixteenths(x))))
  {
    RoundNearSixteenth(x);
  }

  /** The two formatters differ exactly on the angles line 87 handles: those
      whose sixteenths reduce to numerator 1 over a denominator above 1. */
  lemma CorrectionOnlyAtLine87(v: Value)
    ensures FormatValue(v) != FormatValueCorrected(v) <==>
      v.Finite? && NearSixteenth(v.x) && Reduce(Sixteenths(v.x)).num == 1 && Reduce(Sixteenths(v.x)).denom != 1
  {
    if v.Finite? && NearSixteenth(v.x) {
      CorrectionAtSixteenth(v.x, Reduce(Sixteenths(v.x)));
    }
  }

  lemma CorrectionAtSixteenth(x: NonNegReal, f: Fraction)
    requires NearSixteenth(x) && f == Reduce(Sixteenths(x))
    ensures FormatValue(Finite(x)) == Success(RenderAsWritten(f))
    ensures FormatValueCorrected(Finite(x)) == Success(Render(f))
    ensures RenderAsWritten(f) != Render(f) <==> f.num == 1 && f.denom != 1
  {
    FormatNearSixteenth(x);
    CorrectedNearSixteenth(x);
    ParseRender(f);
    if f.num == 1 && f.denom != 1 {
      AsWrittenLosesDenominator(f);
    }
  }

  /** A whole number `k` of sixteenths of pi is shown as `k/16` in lowest
      terms, by the rendering as written and by the corrected one. */
  lemma FormatSixteenths(k: nat)
    ensures FormatValue(Finite(k as real * Pi / 16.0)) == Success(RenderAsWritten(Reduce(k)))
    ensures FormatValueCorrected(Finite(k as real * Pi / 16.0)) == Success(Render(Reduce(k)))
  {
    var x := k as real * Pi / 16.0;
    WholeSixteenths(k);
    FormatNearSixteenth(x);
    CorrectedNearSixteenth(x);
  }

  lemma WholeSixteenths(k: nat)
    ensures NearSixteenth(k as real * Pi / 16.0)
    ensures Sixteenths(k as real * Pi / 16.0) == k
  {
    var t := (k as real * Pi / 16.0) / Pi * 16.0;
    assert t == k as real;
    assert FractionalPart(t) == 0.0;
  }

  /** `format_expression`: the text shown for an angle expression. It fails
      where evaluation fails, and on `undefined`. An angle in plain
      arithmetic is always shown: as a multiple of pi, rendered as written,
      exactly when it passes the test at line 71, and otherwise with two
      decimals. */
  function FormatExpression(e: Expr): (r: Result<string, Error>)
    ensures r.Success? ==> Evaluable(e)
    ensures !Evaluable(e) ==> r == Failure(Evaluate(e).error)
    ensures Evaluable(e) ==> (r.Failure? <==> Evaluate(e).value.Undefined?)
    ensures Exact(e).Some? ==> r.Success? && (PiSign in r.value <==> NearSixteenth(Exact(e).value))
    ensures Exact(e).Some? && !NearSixteenth(Exact(e).value) ==> r == Success(ToFixed2(Exact(e).value))
  {
    EvaluateAgreesWithExact(e);
    var value :- Evaluate(e);
    FormatValue(value)
  }

  /** `format_expression` with line 87 corrected. */
  function FormatExpressionCorrected(e: Expr): (r: Result<string, Error>)
    ensures r.Success? <==> Evaluable(e) && !Evaluate(e).value.Undefined?
    ensures Exact(e).Some? && NearSixteenth(Exact(e).value) ==>
      r.Success? && ParsePiFraction(r.value) == Some(Reduce(Sixteenths(Exact(e).value)))
  {
    EvaluateAgreesWithExact(e);
    var value :- Evaluate(e);
    FormatValueCorrected(value)
  }

  /** An angle in plain arithmetic that passes the test at line 71 is shown
      by rendering, as written, its whole number of sixteenths in lowest
      terms. */
  lemma FormatExpressionNearSixteenth(e: Expr)
    requires Exact(e).Some? && NearSixteenth(Exact(e).value)
    ensures FormatExpression(e) == Success(RenderAsWritten(Reduce(Sixteenths(Exact(e).value))))
  {
    EvaluateAgreesWithExact(e);
    FormatNearSixteenth(Exact(e).value);
  }
}

=== FILE: numbers.dfy ===
/** The JavaScript numbers the lowering pass computes with.

    Arithmetic is exact rational arithmetic: the rounding of IEEE doubles is
    not modelled, but the special values are. The expression shapes the pass
    evaluates have no negation or subtraction, so every number is
    non-negative. */
module Numbers {
  import opened Wrappers

  type NonNegReal = r: real | 0.0 <= r

  /** `Math.PI`: the double nearest to pi, which is exactly 884279719003555 / 2^48. */
  const Pi: NonNegReal := 884279719003555.0 / 281474976710656.0

  /** `Number.MAX_SAFE_INTEGER`, the cap `ToLength` applies. */
  const MaxSafeInteger: nat := 0x1F_FFFF_FFFF_FFFF

  /** The `Array` constructor rejects every length from 2^32 on. */
  const ArrayLengthLimit: nat := 0x1_0000_0000

  /** A value `evaluate_expression` can return: a number, one of the two
      special numbers, or `undefined` (from an operator it does not know). */
  datatype Value = Finite(x: NonNegReal) | Infinity | NaN | Undefined

  /** JavaScript `a * b`; `undefined` converts to NaN. */
  function Multiply(a: Value, b: Value): (r: Value)
    ensures r != Undefined
    ensures a.Finite? && b.Finite? ==> r.Finite? && r.x == a.x * b.x
    ensures a.NaN? || a.Undefined? || b.NaN? || b.Undefined? ==> r == NaN
    ensures a.Infinity? && b.Finite? ==> r == (if b.x == 0.0 then NaN else Infinity)
    ensures a.Finite? && b.Infinity? ==> r == (if a.x == 0.0 then NaN else Infinity)
    ensures a.Infinity? && b.Infinity? ==> r == Infinity
  {
    match (a, b)
    case (Finite(x), Finite(y)) => Finite(x * y)
    case (Finite(x), Infinity) => if x == 0.0 then NaN else Infinity
    case (Infinity, Finite(y)) => if y == 0.0 then NaN else Infinity
    case (Infinity, Infinity) => Infinity
    case _ => NaN
  }

  /** JavaScript `a / b`: a positive number over zero is Infinity, zero over zero is NaN. */
  function Divide(a: Value, b: Value): (r: Value)
    ensures r != Undefined
    ensures a.Finite? && b.Finite? && b.x != 0.0 ==> r.Finite? && r.x * b.x == a.x
    ensures a.Finite? && b.Finite? && b.x == 0.0 ==> r == (if a.x == 0.0 then NaN else Infinity)
    ensures a.NaN? || a.Undefined? || b.NaN? || b.Undefined? ==> r == NaN
    ensures a.Finite? && b.Infinity? ==> r == Finite(0.0)
    ensures a.Infinity? && b.Finite? ==> r == Infinity
    ensures a.Infinity? && b.Infinity? ==> r == NaN
  {
    match (a, b)
    case (Finite(x), Finite(y)) =>
      if y != 0.0 then Finite(x / y) else if x == 0.0 then NaN else Infinity
    case (Finite(_), Infinity) => Finite(0.0)
    case (Infinity, Finite(_)) => Infinity
    case _ => NaN
  }

  /** Two numbers multiply to their exact product. */
  lemma MultiplyFinite(x: NonNegReal, y: NonNegReal)
    ensures Multiply(Finite(x), Finite(y)) == Finite(x * y)
  {
  }

  /** Multiplication is commutative in JavaScript, special values included. */
  lemma MultiplyCommutes(a: Value, b: Value)
    ensures Multiply(a, b) == Multiply(b, a)
  {
  }

  /** Dividing by a non-zero number and multiplying back restores every value
      except `undefined`, which both operations turn into NaN. */
  lemma DivideThenMultiply(a: Value, b: Value)
    requires b.Finite? && b.x != 0.0
    ensures Multiply(Divide(a, b), b) == (if a.Undefined? then NaN else a)
  {
  }

  /** `ToLength`: the array length a value stands for; NaN and `undefined`
      give 0, fractions are truncated, and the result is capped. */
  function ToLength(v: Value): (n: nat)
    ensures n <= MaxSafeInteger
    ensures v.Finite? && v.x < MaxSafeInteger as real ==> n as real <= v.x < n as real + 1.0
    ensures v.NaN? || v.Undefined? ==> n == 0
    ensures v.Infinity? || (v.Finite? && v.x >= MaxSafeInteger as real) ==> n == MaxSafeInteger
  {
    match v
    case Finite(x) => if x.Floor >= MaxSafeInteger then MaxSafeInteger else x.Floor
    case Infinity => MaxSafeInteger
    case _ => 0
  }

  /** The length of the array `Array.from({length: v}, f)` builds, or `None`
      where the `Array` constructor throws a RangeError. */
  function ArrayLength(v: Value): (r: Option<nat>)
    ensures r.None? <==> v.Infinity? || (v.Finite? && v.x >= ArrayLengthLimit as real)
    ensures r.Some? && v.Finite? ==> r.value as real <= v.x < r.value as real + 1.0
    ensures r.Some? && !v.Finite? ==> r.value == 0
  {
    var n := ToLength(v);
    if n < ArrayLengthLimit then Some(n) else None
  }

  /** A whole number below 2^32 is an array length as it stands. */
  lemma WholeArrayLength(n: nat)
    requires n < ArrayLengthLimit
    ensures ArrayLength(Finite(n as real)) == Some(n)
  {
    assert (n as real).Floor == n;
  }

  /** `array[v]` on an array of `length` elements: the position read when `v`
      is a whole number below `length`, and `None` (the array yields
      `undefined`) for any other value. */
  function ElementIndex(v: Value, length: nat): (r: Option<nat>)
    ensures r.Some? ==> r.value < length && v == Finite(r.value as real)
    ensures v.Finite? && v.x.Floor as real == v.x && v.x < length as real ==> r.Some?
  {
    if v.Finite? && v.x.Floor as real == v.x && v.x < length as real then Some(v.x.Floor) else None
  }
}

=== FILE: registry.dfy ===
/** The qubit allocator `fresh_qubit`, the register table `qubit_dict` with
    its declarations, and operand lookup `get_qubit`. */
module Registry {
  import opened Wrappers
  import opened Numbers
  import opened Syntax
  import opened Errors
  import opened Evaluator
  import opened Circuits

  /** `count` consecutive ids starting at `start`. */
  function Consecutive(start: nat, count: nat): (ids: seq<nat>)
    ensures |ids| == count
    ensures forall k | 0 <= k < count :: ids[k] == start + k
  {
    seq(count, k requires 0 <= k < count => start + k)
  }

  /** `st'` is `st` with `added` unmeasured qubits appended, numbered on from
      the last id, and with the register table and operations unchanged. */
  predicate AppendsQubits(st: State, st': State, added: nat) {
    && |st'.qubits| == |st.qubits| + added
    && st'.qubits[..|st.qubits|] == st.qubits
    && (forall i | |st.qubits| <= i < |st'.qubits| :: st'.qubits[i] == Qubit(i, false))
    && st'.registers == st.registers
    && st'.operations == st.operations
  }

  /** Appending fresh qubits keeps the invariant. */
  lemma AppendPreservesWellFormed(st: State, st': State, added: nat)
    requires WellFormed(st) && AppendsQubits(st, st', added)
    ensures WellFormed(st')
  {
    var n := |st.qubits|;
    forall i | 0 <= i < |st'.qubits|
      ensures st'.qubits[i].id == i
      ensures st'.qubits[i].measured <==> Measurement(i) in st'.operations
    {
      if i < n {
        assert st'.qubits[i] == st'.qubits[..n][i];
      } else if Measurement(i) in st.operations {
        MeasuredIsAllocated(st, i);
      }
    }
    forall name | name in st'.registers
      ensures RegisterWithin(st'.registers[name], |st'.qubits|)
    {
      assert RegisterWithin(st.registers[name], n);
    }
    forall k | 0 <= k < |st'.operations|
      ensures OperationWithin(st'.operations[k], |st'.qubits|)
    {
      assert OperationWithin(st.operations[k], n);
    }
  }

  /** `fresh_qubit` (lines 101-106): the new qubit's id is the number of
      qubits allocated before, it is appended unmeasured, and nothing else
      changes. */
  function FreshQubit(st: State): (res: (State, nat))
    ensures res.1 == |st.qubits|
    ensures AppendsQubits(st, res.0, 1)
    ensures res.0.qubits[res.1] == Qubit(res.1, false)
  {
    var q := |st.qubits|;
    var st' := st.(qubits := st.qubits + [Qubit(q, false)]);
    assert st'.qubits[..q] == st.qubits;
    (st', q)
  }

  /** `Array.from({length: n}, () => fresh_qubit())`: `n` fresh qubits, in
      order, so their ids run from the old qubit count upwards. */
  function Allocate(st: State, n: nat): (res: (State, seq<nat>))
    ensures res.1 == Consecutive(|st.qubits|, n)
    ensures AppendsQubits(st, res.0, n)
    decreases n
  {
    if n == 0 then
      assert st.qubits[..|st.qubits|] == st.qubits;
      (st, [])
    else
      var (st1, q) := FreshQubit(st);
      var (st2, rest) := Allocate(st1, n - 1);
      assert st2.qubits[..|st.qubits|] == st2.qubits[..|st1.qubits|][..|st.qubits|];
      (st2, [q] + rest)
  }

  /** The old-style declaration branch (lines 135-153). A `creg` changes
      nothing, and its size is not even evaluated. A `qreg name[N]` binds
      `name` to `N` fresh qubits, where `N` is the designator's value as an
      array length; a `qreg name` binds it to one fresh qubit. A name that is
      already bound is rebound; the qubits it had stay allocated. */
  function DeclareRegister(st: State, kind: RegisterKind, name: string, designator: Option<Expr>): (r: Result<State, Error>)
    requires WellFormed(st)
    ensures kind == CReg ==> r == Success(st)
    ensures r.Success? ==> WellFormed(r.value) && r.value.operations == st.operations
    ensures r.Success? && kind == QReg ==>
      && |st.qubits| <= |r.value.qubits|
      && AppendsQubits(st, r.value.(registers := st.registers), |r.value.qubits| - |st.qubits|)
      && name in r.value.registers
      && r.value.registers == st.registers[name := r.value.registers[name]]
    ensures kind == QReg && designator.None? ==>
      && r.Success?
      && |r.value.qubits| == |st.qubits| + 1
      && r.value.registers[name] == Scalar(|st.qubits|)
    ensures kind == QReg && designator.Some? ==>
      (r.Success? <==> Evaluable(designator.value) && ArrayLength(Evaluate(designator.value).value).Some?)
    ensures kind == QReg && designator.Some? && r.Success? ==>
      var added := |r.value.qubits| - |st.qubits|;
      && ArrayLength(Evaluate(designator.value).value) == Some(added)
      && r.value.registers[name] == Sized(Consecutive(|st.qubits|, added))
    ensures r.Failure? ==> r.error == InvalidArrayLength || IsEvaluationError(r.error)
    ensures kind == QReg && designator.Some? && !Evaluable(designator.value) ==>
      r == Failure(Evaluate(designator.value).error)
    ensures kind == QReg && designator.Some? && Evaluable(designator.value)
            && ArrayLength(Evaluate(designator.value).value).None? ==>
      r == Failure(InvalidArrayLength)
  {
    match kind
    case CReg => Success(st)
    case QReg =>
      match designator
      case Some(size) =>
        var count :- Evaluate(size);
        (match ArrayLength(count)
         case None => Failure(InvalidArrayLength)
         case Some(n) =>
           var (st', ids) := Allocate(st, n);
           AppendPreservesWellFormed(st, st', n);
           var st'' := st'.(registers := st'.registers[name := Sized(ids)]);
           assert WellFormed(st'') by {
             assert RegisterWithin(Sized(ids), |st''.qubits|);
           }
           Success(st''))
      case None =>
        var (st', q) := FreshQubit(st);
        AppendPreservesWellFormed(st, st', 1);
        Success(st'.(registers := st'.registers[name := Scalar(q)]))
  }

  /** `get_qubit` (lines 107-117): `qubit_dict[name][index]` for an indexed
      identifier, with only its first index read and evaluated. Any other
      operand throws; an undeclared name raises a TypeError. The lookup
      yields a qubit only for a sized register indexed by a whole number
      within its length, and `None` (JavaScript's `undefined`) for a scalar
      register or any other index. */
  function GetQubit(registers: map<string, Register>, operand: Operand): (r: Result<Option<nat>, Error>)
    ensures operand.HardwareQubit? ==> r == Failure(NotIndexedIdentifier)
    ensures operand.IndexedIdentifier? && operand.indices == [] ==> r == Failure(MissingIndex)
    ensures r.Success? ==>
      operand.IndexedIdentifier? && operand.indices != [] && Evaluable(operand.indices[0]) && operand.name in registers
    ensures operand.IndexedIdentifier? && operand.indices != [] && !Evaluable(operand.indices[0]) ==>
      r == Failure(Evaluate(operand.indices[0]).error)
    ensures operand.IndexedIdentifier? && operand.indices != [] && Evaluable(operand.indices[0]) ==>
      (r.Success? <==> operand.name in registers)
    ensures operand.IndexedIdentifier? && operand.indices != [] && Evaluable(operand.indices[0]) && operand.name !in registers ==>
      r == Failure(UndeclaredRegister(operand.name))
    ensures r.Success? && registers[operand.name].Scalar? ==> r.value.None?
    ensures r.Success? && r.value.Some? ==>
      && registers[operand.name].Sized?
      && var qs := registers[operand.name].qubits;
         exists k | 0 <= k < |qs| :: qs[k] == r.value.value && Evaluate(operand.indices[0]).value == Finite(k as real)
    ensures r.Success? && registers[operand.name].Sized? ==>
      var qs := registers[operand.name].qubits;
      forall k | 0 <= k < |qs| :: Evaluate(operand.indices[0]).value == Finite(k as real) ==> r.value == Some(qs[k])
  {
    match operand
    case HardwareQubit(_) => Failure(NotIndexedIdentifier)
    case IndexedIdentifier(name, indices) =>
      if indices == [] then Failure(MissingIndex)
      else
        var index :- Evaluate(indices[0]);
        if name !in registers then Failure(UndeclaredRegister(name))
        else
          match registers[name]
          case Scalar(_) => Success(None)
          case Sized(qs) =>
            match ElementIndex(index, |qs|)
            case Some(k) => Success(Some(qs[k]))
            case None => Success(None)
  }

  /** Every qubit `get_qubit` finds in a well-formed table is allocated. */
  lemma ResolvedIsAllocated(st: State, operand: Operand)
    requires WellFormed(st) && GetQubit(st.registers, operand).Success?
    requires GetQubit(st.registers, operand).value.Some?
    ensures GetQubit(st.registers, operand).value.value < |st.qubits|
  {
    var name := operand.name;
    assert RegisterWithin(st.registers[name], |st.qubits|);
  }
}

=== FILE: steps.dfy ===
/** One child of the program at a time: what a declaration, a gate call or
    a measurement whose parts resolve does to the run, and the loop as the
    fold of those steps. */
module Steps {
  import opened Wrappers
  import opened Numbers
  import opened Syntax
  import opened Errors
  import opened Evaluator
  import opened Formatter
  import opened Circuits
  import opened Registry
  import opened Emitter
  import opened Walker

  function Wrap(s: Statement): TopLevel {
    StatementOrScope(StatementNode(s))
  }

  /** `n` unmeasured qubits numbered on from `start`. */
  function FreshQubits(start: nat, n: nat): seq<Qubit> {
    seq(n, k requires 0 <= k < n => Qubit(start + k, false))
  }

  /** `qreg name[size]` with a size that evaluates to a whole number `n`. */
  lemma DeclareSizedStep(st: State, i: nat, name: string, size: Expr, n: nat)
    requires WellFormed(st)
    requires Evaluate(size) == Success(Finite(n as real)) && n < ArrayLengthLimit
    ensures Step(st, i, Wrap(OldStyleDeclarationStatement(QReg, name, Some(size))))
         == Success(State(st.qubits + FreshQubits(|st.qubits|, n),
                          st.registers[name := Sized(Consecutive(|st.qubits|, n))],
                          st.operations))
  {
    var m := |st.qubits|;
    var s := OldStyleDeclarationStatement(QReg, name, Some(size));
    WholeArrayLength(n);
    var (st', ids) := Allocate(st, n);
    assert DeclareRegister(st, QReg, name, Some(size)) == Success(st'.(registers := st'.registers[name := Sized(ids)]));
    assert st'.qubits == st'.qubits[..m] + st'.qubits[m..];
    assert st'.qubits[m..] == FreshQubits(m, n);
    assert Step(st, i, Wrap(s)) == ExecuteStatement(st, s);
  }

  /** `target = measure operand` with an operand that resolves to `q`. */
  lemma MeasureStep(st: State, i: nat, target: string, operand: Operand, q: nat)
    requires WellFormed(st)
    requires GetQubit(st.registers, operand) == Success(Some(q))
    ensures q < |st.qubits|
    ensures Step(st, i, Wrap(AssignmentStatement(target, MeasureExpression(operand))))
         == Success(State(st.qubits[q := Qubit(q, true)], st.registers, st.operations + [Measurement(q)]))
  {
    var r := EmitMeasurement(st, MeasureExpression(operand));
    assert r.Success?;
    assert r.value.qubits == st.qubits[q := Qubit(q, true)];
  }

  /** A rotation whose operand and angle resolve appends one record. */
  lemma RotationStep(st: State, i: nat, gate: string, angle: Expr, operand: Operand, q: nat, text: string)
    requires WellFormed(st) && (gate == "rz" || gate == "rx")
    requires GetQubit(st.registers, operand) == Success(Some(q))
    requires FormatExpression(angle) == Success(text)
    ensures Step(st, i, Wrap(GateCallStatement(gate, [angle], [operand])))
         == Success(st.(operations := st.operations + [Rotation(if gate == "rz" then "RZ" else "RX", q, text)]))
  {
    Text.UpperRotationNames();
    var r := EmitGateCall(st, gate, [angle], [operand]);
    assert r.Success?;
    assert Resolved(st.registers, operand) == q;
    assert ExecuteStatement(st, GateCallStatement(gate, [angle], [operand])) == r;
    assert Step(st, i, Wrap(GateCallStatement(gate, [angle], [operand]))) == r;
  }

  /** A `cx` whose two operands resolve appends one record. */
  lemma ControlledStep(st: State, i: nat, control: Operand, target: Operand, c: nat, t: nat)
    requires WellFormed(st)
    requires GetQubit(st.registers, control) == Success(Some(c))
    requires GetQubit(st.registers, target) == Success(Some(t))
    ensures Step(st, i, Wrap(GateCallStatement("cx", [], [control, target])))
         == Success(st.(operations := st.operations + [ControlledX(c, t)]))
  {
    var r := EmitGateCall(st, "cx", [], [control, target]);
    assert r.Success?;
  }

  /** Child `k` takes the run from `states[k]` to `states[k + 1]`. */
  predicate Advances(children: seq<TopLevel>, states: seq<State>, k: nat)
    requires k + 1 < |states| && k < |children|
  {
    WellFormed(states[k]) && Step(states[k], k, children[k]) == Success(states[k + 1])
  }

  /** The loop is the fold of `Step`: when every child but the last steps
      from one state of `states` to the next, the walk ends in the last. */
  lemma {:induction false} WalkThrough(children: seq<TopLevel>, states: seq<State>, i: nat)
    requires |states| == |children| > 0 && i < |children|
    requires forall k | i <= k < |children| - 1 :: Advances(children, states, k)
    requires WellFormed(states[i])
    ensures Walk(children, i, states[i]) == Success(states[|children| - 1])
    decreases |children| - i
  {
    if i + 1 < |children| {
      assert Advances(children, states, i);
      WalkThrough(children, states, i + 1);
    }
  }

  /** The first child the loop rejects decides the run: when the children
      before position `k` step through `states` from the empty run and child
      `k`, not the last, fails with `e`, the whole pass fails with `e`. */
  lemma StepFailureAborts(children: seq<TopLevel>, states: seq<State>, k: nat, e: Error)
    requires |states| == k + 1 && k + 1 < |children|
    requires states[0] == Empty
    requires forall j | 0 <= j < k :: Advances(children, states, j)
    requires WellFormed(states[k])
    requires Step(states[k], k, children[k]) == Failure(e)
    ensures Lower(children) == Failure(e)
  {
    WalkFailsAt(children, states, 0, k, e);
  }

  /** A gate call whose first operand names a register that was never
      declared stops the run with `UndeclaredRegister` for that name, once
      the operand's index evaluates: `rz(pi) r[0];` without `qreg r` gives
      no circuit. */
  lemma UndeclaredRegisterAborts(children: seq<TopLevel>, states: seq<State>, k: nat,
                                 gate: string, arguments: seq<Expr>, operands: seq<Operand>)
    requires |states| == k + 1 && k + 1 < |children|
    requires states[0] == Empty
    requires forall j | 0 <= j < k :: Advances(children, states, j)
    requires WellFormed(states[k])
    requires children[k] == Wrap(GateCallStatement(gate, arguments, operands))
    requires gate == "rz" || gate == "rx" || gate == "cx"
    requires operands != [] && operands[0].IndexedIdentifier? && operands[0].indices != []
    requires Evaluable(operands[0].indices[0]) && operands[0].name !in states[k].registers
    ensures Lower(children) == Failure(UndeclaredRegister(operands[0].name))
  {
    var e := UndeclaredRegister(operands[0].name);
    assert GetQubit(states[k].registers, operands[0]) == Failure(e);
    assert EmitGateCall(states[k], gate, arguments, operands) == Failure(e);
    StepFailureAborts(children, states, k, e);
  }

  lemma {:induction false} WalkFailsAt(children: seq<TopLevel>, states: seq<State>, i: nat, k: nat, e: Error)
    requires i <= k && |states| == k + 1 && k + 1 < |children|
    requires forall j | i <= j < k :: Advances(children, states, j)
    requires WellFormed(states[i]) && WellFormed(states[k])
    requires Step(states[k], k, children[k]) == Failure(e)
    ensures Walk(children, i, states[i]) == Failure(e)
    decreases k - i
  {
    if i < k {
      assert Advances(children, states, i);
      WalkStep(children, i, states[i], states[i + 1]);
      WalkFailsAt(children, states, i + 1, k, e);
    }
  }

  /** One turn of the loop: a child that steps from `st` to `st'` hands the
      rest of the walk `st'`. */
  lemma WalkStep(children: seq<TopLevel>, i: nat, st: State, st': State)
    requires WellFormed(st) && i + 1 < |children|
    requires Step(st, i, children[i]) == Success(st')
    ensures WellFormed(st')
    ensures Walk(children, i, st) == Walk(children, i + 1, st')
  {
  }

  /** The loop stops before the last child, whatever it is. */
  lemma WalkEnd(children: seq<TopLevel>, st: State)
    requires WellFormed(st) && |children| > 0
    ensures Walk(children, |children| - 1, st) == Success(st)
  {
  }

  /** The circuit is the end state of the walk from the empty state. */
  lemma LowerOfWalk(program: seq<TopLevel>, st: State)
    requires WellFormed(Empty) && Walk(program, 0, Empty) == Success(st)
    ensures Lower(program) == Success(CircuitModel(st.qubits, st.operations))
  {
  }
}

=== FILE: syntax.dfy ===
/** The shapes of the OpenQASM parse tree that the lowering pass tells apart.

    The pass receives an ANTLR tree and classifies each node by its grammar
    rule, its number of children or the symbol type of a token. Each
    constructor below is one such shape, with the parts the pass reads. */
module Syntax {
  import opened Wrappers
  import Numbers
  import Text

  /** A token (an ANTLR terminal), by symbol type. */
  datatype Token =
    | DecimalIntegerLiteral(text: Text.NumeralText)
    | FloatLiteral(value: Numbers.NonNegReal)  // the number `parseFloat` reads from the token text
    | Identifier(name: string)
    | Slash
    | Asterisk
    | OtherSymbol(symbolType: string)

  /** An expression node. */
  datatype Expr =
    | Binary(lhs: Expr, op: Token, rhs: Expr)  // three children: operand, operator token, operand
    | Leaf(first: Token)                       // not three children, the first a token (`pi`, `3`, `-x`, `sin(x)`)
    | Parenthesized(inner: Expr)               // three children, the first the token `(`
    | Compound(head: Expr)                     // not three children, the first a sub-expression (`a[0]`)

  /** A gate operand, or the operand of a measurement. */
  datatype Operand =
    | IndexedIdentifier(name: string, indices: seq<Expr>)  // `q`, `q[i]`; only the first index is read
    | HardwareQubit(text: string)                          // `$0`

  /** The keyword of an old-style declaration; the grammar allows no other. */
  datatype RegisterKind = QReg | CReg

  /** The right-hand side of an assignment statement. */
  datatype AssignedValue = MeasureExpression(operand: Operand) | PlainExpression(value: Expr)

  datatype Statement =
    | IncludeStatement(path: string)
    | OldStyleDeclarationStatement(kind: RegisterKind, name: string, designator: Option<Expr>)
    | GateCallStatement(gate: string, arguments: seq<Expr>, operands: seq<Operand>)
    | AssignmentStatement(target: string, value: AssignedValue)
    | OtherStatement(rule: string)  // any other statement rule (`gate`, `if`, `reset`, ...)

  /** What a `statementOrScope` node wraps. */
  datatype StatementOrScopeBody = StatementNode(statement: Statement) | ScopeNode

  /** A child of the program root. The grammar puts a version first if at
      all and the end-of-file token last. */
  datatype TopLevel =
    | VersionNode(specifier: string)
    | StatementOrScope(body: StatementOrScopeBody)
    | EndOfFile
}

=== FILE: text.dfy ===
/** Decimal text as JavaScript reads and writes it: `${n}` for a non-negative
    integer, `parseInt` on the text of an integer-literal token, and
    `toUpperCase` on gate names. */
module Text {

  predicate IsDigit(c: char) {
    '0' <= c <= '9'
  }

  predicate AllDigits(s: string) {
    forall i | 0 <= i < |s| :: IsDigit(s[i])
  }

  function DigitValue(c: char): (d: nat)
    requires IsDigit(c)
    ensures d < 10
  {
    (c as int) - ('0' as int)
  }

  function DigitChar(d: nat): (c: char)
    requires d < 10
    ensures IsDigit(c) && DigitValue(c) == d
  {
    (('0' as int) + d) as char
  }

  /** The text JavaScript gives a non-negative integer (`String(n)`, `${n}`):
      decimal digits, without a leading zero unless the number is 0. */
  function NatToString(n: nat): (s: string)
    ensures |s| > 0 && AllDigits(s)
    ensures |s| > 1 ==> s[0] != '0'
    decreases n
  {
    if n < 10 then [DigitChar(n)] else NatToString(n / 10) + [DigitChar(n % 10)]
  }

  /** The number a string of decimal digits denotes, most significant digit first. */
  function DigitsValue(s: string): nat
    requires AllDigits(s)
  {
    if |s| == 0 then 0 else DigitsValue(s[..|s| - 1]) * 10 + DigitValue(s[|s| - 1])
  }

  /** Length of the longest prefix of `s` that consists of decimal digits. */
  function DigitPrefixLength(s: string): (k: nat)
    ensures k <= |s| && AllDigits(s[..k])
    ensures k < |s| ==> !IsDigit(s[k])
  {
    if |s| == 0 || !IsDigit(s[0]) then 0 else 1 + DigitPrefixLength(s[1..])
  }

  /** The text of a decimal integer-literal token: it always starts with a digit. */
  type NumeralText = s: string | |s| > 0 && IsDigit(s[0]) witness "0"

  /** `parseInt(text)` on a numeral: the value of its leading run of digits.
      Reading stops at the first other character, so `1_000` reads as 1. */
  function ParseInt(text: NumeralText): nat {
    DigitsValue(text[..DigitPrefixLength(text)])
  }

  lemma {:induction false} DigitsValueOfSnoc(s: string, c: char)
    requires AllDigits(s) && IsDigit(c)
    ensures AllDigits(s + [c])
    ensures DigitsValue(s + [c]) == DigitsValue(s) * 10 + DigitValue(c)
  {
    assert (s + [c])[..|s|] == s;
  }

  /** Reading back the text of a number gives the number. */
  lemma {:induction false} DigitsValueOfNatToString(n: nat)
    ensures DigitsValue(NatToString(n)) == n
    decreases n
  {
    if n >= 10 {
      DigitsValueOfNatToString(n / 10);
      DigitsValueOfSnoc(NatToString(n / 10), DigitChar(n % 10));
    }
  }

  /** `parseInt` inverts `${n}`. */
  lemma ParseIntOfNatToString(n: nat)
    ensures ParseInt(NatToString(n)) == n
  {
    var s := NatToString(n);
    AllDigitsPrefixLength(s);
    assert s[..|s|] == s;
    DigitsValueOfNatToString(n);
  }

  lemma {:induction false} AllDigitsPrefixLength(s: string)
    requires AllDigits(s)
    ensures DigitPrefixLength(s) == |s|
    decreases |s|
  {
    if |s| > 0 {
      AllDigitsPrefixLength(s[1..]);
    }
  }

  /** Distinct numbers have distinct texts. */
  lemma NatToStringInjective(m: nat, n: nat)
    requires NatToString(m) == NatToString(n)
    ensures m == n
  {
    DigitsValueOfNatToString(m);
    DigitsValueOfNatToString(n);
  }

  /** `parseInt` ignores everything from the first non-digit on: a numeral
      with a digit separator reads as its first group. */
  lemma {:induction false} ParseIntStopsAtNonDigit(digits: string, rest: string)
    requires |digits| > 0 && AllDigits(digits)
    requires |rest| > 0 && !IsDigit(rest[0])
    ensures ParseInt(digits + rest) == DigitsValue(digits)
  {
    PrefixLengthOfDigitsThenOther(digits, rest);
    assert (digits + rest)[..|digits|] == digits;
  }

  lemma {:induction false} PrefixLengthOfDigitsThenOther(digits: string, rest: string)
    requires AllDigits(digits)
    requires |rest| > 0 && !IsDigit(rest[0])
    ensures DigitPrefixLength(digits + rest) == |digits|
    decreases |digits|
  {
    if |digits| > 0 {
      assert (digits + rest)[1..] == digits[1..] + rest;
      PrefixLengthOfDigitsThenOther(digits[1..], rest);
    }
  }

  function UpperChar(c: char): char {
    if 'a' <= c <= 'z' then ((c as int) - 32) as char else c
  }

  /** `toUpperCase` restricted to ASCII letters, enough for gate names. */
  function AsciiUpper(s: string): string {
    if |s| == 0 then "" else [UpperChar(s[0])] + AsciiUpper(s[1..])
  }

  /** The uppercase forms of the rotation gate names. */
  lemma UpperRotationNames()
    ensures AsciiUpper("rz") == "RZ" && AsciiUpper("rx") == "RX"
  {
    assert "rz"[1..] == "z" && "rx"[1..] == "x" && "z"[1..] == "" && "x"[1..] == "";
  }
}

=== FILE: walker.dfy ===
/** The top-level statement loop (lines 118-213): walks the children of the
    program root in order, threading the run's state, and builds the
    circuit. The first error aborts the run, so no circuit is produced. */
module Walker {
  import opened Wrappers
  import opened Syntax
  import opened Errors
  import opened Circuits
  import opened Registry
  import opened Emitter
  import opened Text

  /** The only version the pass accepts. */
  const SupportedVersion: string := "2.0"

  /** A gate call or an assignment: the statements that append an operation. */
  predicate IsOperationStatement(child: TopLevel) {
    && child.StatementOrScope?
    && child.body.StatementNode?
    && (child.body.statement.GateCallStatement? || child.body.statement.AssignmentStatement?)
  }

  /** The gate name the operation of an operation statement carries: `RZ`,
      `RX`, `X` for `cx`, `Measure` for an assignment. A gate the loop
      rejects keeps its own name; it never reaches the operations. */
  function Label(s: Statement): string {
    match s
    case GateCallStatement(gate, _, _) =>
      if gate == "rz" || gate == "rx" then AsciiUpper(gate) else if gate == "cx" then "X" else gate
    case _ => "Measure"
  }

  /** The shapes the loop accepts at position `i`: a version `2.0` first, or a
      statement that is an include, an old-style declaration, a call of `rz`,
      `rx` or `cx`, or an assignment. */
  predicate Accepted(child: TopLevel, i: nat) {
    match child
    case VersionNode(v) => i == 0 && v == SupportedVersion
    case StatementOrScope(StatementNode(s)) =>
      (match s
       case IncludeStatement(_) => true
       case OldStyleDeclarationStatement(_, _, _) => true
       case GateCallStatement(gate, _, _) => gate == "rz" || gate == "rx" || gate == "cx"
       case AssignmentStatement(_, _) => true
       case OtherStatement(_) => false)
    case _ => false
  }

  /** One statement (lines 132-200). */
  function ExecuteStatement(st: State, s: Statement): (r: Result<State, Error>)
    requires WellFormed(st)
    ensures r.Success? ==> WellFormed(r.value)
    ensures s.IncludeStatement? ==> r == Success(st)
    ensures s.OtherStatement? ==> r == Failure(UnexpectedStatement)
    ensures s.OldStyleDeclarationStatement? && DeclareRegister(st, s.kind, s.name, s.designator).Failure? ==>
      r == DeclareRegister(st, s.kind, s.name, s.designator)
    ensures s.GateCallStatement? && EmitGateCall(st, s.gate, s.arguments, s.operands).Failure? ==>
      r == EmitGateCall(st, s.gate, s.arguments, s.operands)
    ensures s.AssignmentStatement? && EmitMeasurement(st, s.value).Failure? ==>
      r == EmitMeasurement(st, s.value)
    ensures r.Success? && (s.GateCallStatement? || s.AssignmentStatement?) ==>
      && |r.value.operations| == |st.operations| + 1
      && r.value.operations[..|st.operations|] == st.operations
      && r.value.operations[|st.operations|].gate == Label(s)
    ensures r.Success? && !(s.GateCallStatement? || s.AssignmentStatement?) ==> r.value.operations == st.operations
    ensures r.Success? && s.GateCallStatement? ==> s.gate == "rz" || s.gate == "rx" || s.gate == "cx"
  {
    match s
    case IncludeStatement(_) => Success(st)
    case OldStyleDeclarationStatement(kind, name, designator) => DeclareRegister(st, kind, name, designator)
    case GateCallStatement(gate, arguments, operands) =>
      var r := EmitGateCall(st, gate, arguments, operands);
      if r.Success? then
        assert r.value.operations[..|st.operations|] == st.operations;
        r
      else r
    case AssignmentStatement(_, value) =>
      var r := EmitMeasurement(st, value);
      if r.Success? then
        assert r.value.operations[..|st.operations|] == st.operations;
        r
      else r
    case OtherStatement(_) => Failure(UnexpectedStatement)
  }

  /** One child of the program root at position `i`, not the last one
      (lines 122-208). A version is checked only in first position; anything
      but a `statementOrScope` wrapping a statement is rejected. */
  function Step(st: State, i: nat, child: TopLevel): (r: Result<State, Error>)
    requires WellFormed(st)
    ensures r.Success? ==> WellFormed(r.value) && Accepted(child, i)
    ensures r.Success? ==> Extends(st, r.value, Emitted(child))
    ensures child.VersionNode? && i == 0 && child.specifier != SupportedVersion ==>
      r == Failure(UnknownVersion(child.specifier))
    ensures child.VersionNode? && i == 0 && child.specifier == SupportedVersion ==> r == Success(st)
    ensures !(child.VersionNode? && i == 0) && !(child.StatementOrScope? && child.body.StatementNode?) ==>
      r == Failure(UnexpectedElement)
    ensures child.StatementOrScope? && child.body.StatementNode? && child.body.statement.OtherStatement? ==>
      r == Failure(UnexpectedStatement)
    ensures child.StatementOrScope? && child.body.StatementNode? && ExecuteStatement(st, child.body.statement).Failure? ==>
      r == ExecuteStatement(st, child.body.statement)
  {
    match child
    case VersionNode(v) =>
      if i != 0 then Failure(UnexpectedElement)
      else if v != SupportedVersion then Failure(UnknownVersion(v))
      else
        assert st.operations[..|st.operations|] == st.operations;
        Success(st)
    case StatementOrScope(StatementNode(s)) =>
      var r := ExecuteStatement(st, s);
      if r.Success? && !IsOperationStatement(child) then
        assert r.value.operations[..|st.operations|] == st.operations;
        r
      else r
    case _ => Failure(UnexpectedElement)
  }

  /** The statement whose operation a child appends, if any. */
  function Emitted(child: TopLevel): seq<Statement> {
    if IsOperationStatement(child) then [child.body.statement] else []
  }

  /** The statements that append an operation, among the children from
      position `i` on, leaving out the last child. */
  function OperationStatements(children: seq<TopLevel>, i: nat): seq<Statement>
    decreases |children| - i
  {
    if i + 1 >= |children| then []
    else Emitted(children[i]) + OperationStatements(children, i + 1)
  }

  /** `st'` keeps the operations of `st` and appends one operation per
      statement of `stmts`, in order, each carrying that statement's label. */
  predicate Extends(st: State, st': State, stmts: seq<Statement>) {
    && |st'.operations| == |st.operations| + |stmts|
    && st'.operations[..|st.operations|] == st.operations
    && forall k | 0 <= k < |stmts| :: st'.operations[|st.operations| + k].gate == Label(stmts[k])
  }

  lemma ExtendsNothing(st: State)
    ensures Extends(st, st, [])
  {
    assert st.operations[..|st.operations|] == st.operations;
  }

  /** Extensions compose. */
  lemma ExtendsTransitive(st: State, st': State, st'': State, a: seq<Statement>, b: seq<Statement>)
    requires Extends(st, st', a) && Extends(st', st'', b)
    ensures Extends(st, st'', a + b)
  {
    var n, n' := |st.operations|, |st'.operations|;
    assert st''.operations[..n] == st''.operations[..n'][..n];
    forall k | 0 <= k < |a + b|
      ensures st''.operations[n + k].gate == Label((a + b)[k])
    {
      if k < |a| {
        assert st''.operations[n + k] == st''.operations[..n'][n + k];
        assert st'.operations[n + k].gate == Label(a[k]);
      } else {
        assert st''.operations[n' + (k - |a|)].gate == Label(b[k - |a|]);
      }
    }
  }

  /** The loop from position `i` on. The last child (end of file) is never
      inspected. On success every child on the way was accepted, and the
      operations appended are, in order, one per gate call or assignment. */
  function Walk(children: seq<TopLevel>, i: nat, st: State): (r: Result<State, Error>)
    requires WellFormed(st)
    ensures r.Success? ==> WellFormed(r.value)
    ensures r.Success? ==> forall k | i <= k < |children| - 1 :: Accepted(children[k], k)
    ensures r.Success? ==> Extends(st, r.value, OperationStatements(children, i))
    ensures i + 1 < |children| && Step(st, i, children[i]).Failure? ==> r == Failure(Step(st, i, children[i]).error)
    decreases |children| - i
  {
    if i + 1 >= |children| then
      ExtendsNothing(st);
      Success(st)
    else
      var st' :- Step(st, i, children[i]);
      var r := Walk(children, i + 1, st');
      if r.Success? then
        ExtendsTransitive(st, st', r.value, Emitted(children[i]), OperationStatements(children, i + 1));
        r
      else r
  }

  /** The whole pass: lines 98-213 without the final call to the renderer. */
  function Lower(program: seq<TopLevel>): (r: Result<CircuitModel, Error>)
    ensures r.Success? ==> WellFormedCircuit(r.value)
    ensures r.Success? ==> forall k | 0 <= k < |program| - 1 :: Accepted(program[k], k)
    ensures r.Success? ==>
      var ops := OperationStatements(program, 0);
      && |r.value.operations| == |ops|
      && forall k | 0 <= k < |ops| :: r.value.operations[k].gate == Label(ops[k])
  {
    var st :- Walk(program, 0, Empty);
    Success(CircuitModel(st.qubits, st.operations))
  }

  /** The last child is never looked at. */
  lemma LowerIgnoresLastChild(program: seq<TopLevel>, x: TopLevel, y: TopLevel)
    ensures Lower(program + [x]) == Lower(program + [y])
  {
    WalkIgnoresLastChild(program, x, y, 0, Empty);
  }

  lemma {:induction false} WalkIgnoresLastChild(program: seq<TopLevel>, x: TopLevel, y: TopLevel, i: nat, st: State)
    requires WellFormed(st)
    ensures Walk(program + [x], i, st) == Walk(program + [y], i, st)
    decreases |program| - i
  {
    if i < |program| {
      assert (program + [x])[i] == program[i] == (program + [y])[i];
      var r := Step(st, i, program[i]);
      if r.Success? {
        WalkIgnoresLastChild(program, x, y, i + 1, r.value);
      }
    }
  }

  /** A first child declaring any version other than 2.0 aborts the run
      before any statement is looked at. */
  lemma UnsupportedVersionAborts(program: seq<TopLevel>)
    requires |program| >= 2 && program[0].VersionNode? && program[0].specifier != SupportedVersion
    ensures Lower(program) == Failure(UnknownVersion(program[0].specifier))
  {
  }

  /** A child the loop does not accept, anywhere but last, makes the whole
      run fail: no circuit is produced. */
  lemma RejectedChildAborts(program: seq<TopLevel>, k: nat)
    requires k < |program| - 1 && !Accepted(program[k], k)
    ensures Lower(program).Failure?
  {
  }
}

=== FILE: wrappers.dfy ===
/** Failure-carrying results: the lowering pass reports every `throw` of the
    source as a `Failure`, and a run either yields a value or an error. */
module Wrappers {

  /** A value that may be absent (JavaScript's `undefined` where a lookup finds nothing). */
  datatype Option<+T> = None | Some(value: T)

  /** Either a value or the error that aborted the computation; usable with `:-`. */
  datatype Result<+T, +E> = Success(value: T) | Failure(error: E) {

    predicate IsFailure() {
      Failure?
    }

    function PropagateFailure<U>(): Result<U, E>
      requires Failure?
    {
      Failure(error)
    }

    function Extract(): T
      requires Success?
    {
      value
    }
  }
}
